=== FILE: README.md ===
# Speech bridge model

This is a Dafny model of the sequential core of three vendor speech integrations of the agent framework. It also models the latency statistics of its TTS test driver.

- **Play.ht TTS** (`playht_tts.py`). Float32 audio arrives in chunks of any length. A handler realigns the chunks on 4-byte sample boundaries, converts each aligned run to int16, and puts one queue item per chunk. The `PlayhtTTS` session creates its vendor client lazily, drops it on any error, and tears it down on cancel.
- **Tencent ASR**. Vendor payloads become `AsrResult`s with base-time correction (`tencent_asr.py`, `asr_result.py`). Listener events are routed onto the result queue, and the recogniser has a lifecycle. The extension (`extension.py`) gates client creation on credentials. It maps each result to an outgoing `text_data` record and drains the result queue.
- **Tencent TTS**. A vendor callback forwards audio until synthesis ends. The synthesizer is either present or absent, with no lazy re-creation. The extension validates credentials in order, drains the audio queue, and delegates requests and cancels.
- **TTS latency statistics** (`test_tts.py`):
  - `clean_timestamp`, `get_property_json` and `get_worker_log_file`;
  - the per-line scan in `stat`, which pairs each request's send point with its first receive point and emits one timing row per pair after the first.

## How the system is represented

- **Queues.** Every `asyncio.Queue` is the sequence of what was put into it, oldest first (`HandoffQueue`). `None` is the sentinel. A consumer loop takes items from the head and stops at the first `None`; a loop that runs out of items is still waiting.
- **Vendor calls** are parameters: a `Step` (succeeds, or raises a given exception), or a fault value that names the call that raises. This covers the pyht client, `SpeechRecognizer`, `FlowingSpeechSynthesizer` and websocket errors.
- **Python exceptions** that decide control flow are values of `PyError`. Where Python would raise, a function returns the error next to the state the code leaves behind.
- **Float conversion.** The float32 value of a 4-byte sample times 32768, truncated, is a function parameter `scaled`. The code clips the float before truncating; for a finite float, since both bounds are integers, that equals truncating first and clipping after, as modelled (NaN and infinities are not modelled). Clipping to the int16 range, the two's-complement encoding and the sample order are modelled exactly. The encoding is little-endian, as on a little-endian host: numpy's `tobytes()` writes the host's native byte order.
- **Python text operations** are modelled on `string`: `in`, `str.split(sep)[1]`, `str.strip()`, `int(str)` for ASCII decimal text with an optional sign and digit-group underscores, and `os.path.basename`/`os.path.join` on POSIX paths.
- **`stat`.** The worker logs are a map from path to lines. A log that is not in the map cannot be opened. Each line is reduced to the marks the scan reads from it (`LineMarks`).

The model follows the code as written, including these behaviours:

- **Lost audio frames.** ASR `on_audio_frame` calls `send_audio_data`, which `TencetASR` does not define. The call raises `AttributeError`, and audio frames never reach the recogniser.
- **Time base.** `first_frame_timestamp` is never assigned after construction, so every time is corrected against base 0.
- **No sentinel.** Nothing ever puts `None` on the Tencent queues, so their consumers never stop.
- **End of segment.** The end-of-segment flag is ignored by both TTS clients. No finish call is made.
- **Recovery after an error.** Tencent TTS does not re-create its synthesizer after an error; later requests are no-ops. Play.ht does rebuild its client on the next request.
- **Play.ht cancel.** `cancel` reads `self.out_stream`, an attribute `PlayhtTTS` never defines. The resulting `AttributeError` is caught, and the cancel goes on to close the current handler and the client.
- **Play.ht replaced handlers.** A failed request only drops the client. The next request starts a new handler, but the old handler's task is never stopped: it keeps reading its own stream, with its own carried bytes, and puts items on the same queue. `cancel` closes only the current handler.
- **Tencent TTS cancel.** Cancelling does not close the vendor callback. Late audio from a cancelled or replaced synthesizer still reaches the shared queue.
- **Leftover bytes.** A residual of fewer than 4 bytes at the end of a Play.ht stream is carried and never emitted.

## Model

Source paths are relative to the repository root.

| member | source | states |
|---|---|---|
| Pcm.Clip | agents/ten_packages/extension/playht_tts_python/playht_tts.py:18 | the clipped value is in [-32768, 32767]; in-range values are unchanged, values below or above go to the nearer bound |
| Pcm.EncodeInt16Le | agents/ten_packages/extension/playht_tts_python/playht_tts.py:20 | the 2-byte int16 little-endian encoding decodes back to the value it encodes |
| Pcm.ConvertF32leToS16le | agents/ten_packages/extension/playht_tts_python/playht_tts.py:15-22 | the output is half as long as the input, and output sample i is the clipped scaled value of exactly input sample i |
| Pcm.ConvertConcat | agents/ten_packages/extension/playht_tts_python/playht_tts.py:15-22 | converting two sample-aligned buffers one after the other gives the conversion of their concatenation |
| PlayhtTts.HandleChunk | agents/ten_packages/extension/playht_tts_python/playht_tts.py:66-80 | one loop iteration: aligned part plus carried part is exactly buffer plus chunk; the aligned part is a multiple of 4, the carry is shorter than 4 and empty iff the total is a multiple of 4; the item is half the aligned length and converts it sample by sample |
| PlayhtTts.HandleAudioData | agents/ten_packages/extension/playht_tts_python/playht_tts.py:61-81 | over a whole stream: one item per chunk, in order; the aligned runs joined, followed by the final carry, are the initial buffer followed by all chunks, so no byte is lost or duplicated; each item is the conversion of its run; after every prefix of the chunks the runs so far total the largest multiple of 4 not above the bytes received, so each whole sample is emitted with the chunk that completes it and the carry stays shorter than 4 |
| PlayhtTts.ItemsAreConvertedRuns | agents/ten_packages/extension/playht_tts_python/playht_tts.py:66-80 | the queue items joined are the conversion of the aligned runs joined |
| PlayhtTts.ChunkedEqualsWhole | agents/ten_packages/extension/playht_tts_python/playht_tts.py:61-81 | for a fresh handler and chunks totalling a multiple of 4, the items joined equal converting the whole stream at once, and nothing is left carried |
| PlayhtTts.SplitSamplesExample | agents/ten_packages/extension/playht_tts_python/playht_tts.py:61-81 | the samples 1.0, -1.0, 0.5 sent as a 5-byte and a 7-byte chunk come out as 32767 in the first item and -32768, 16384 in the second |
| PlayhtTts.CreateSynthesizer | agents/ten_packages/extension/playht_tts_python/playht_tts.py:97-118 | the old client is dropped; on success a new client is built and a new handler with an empty buffer is started on the same queue and becomes current, while earlier handlers stay started; a failing constructor leaves no client; a failing stream pair leaves the new client with the old handler and starts none |
| PlayhtTts.TextToSpeechStream | agents/ten_packages/extension/playht_tts_python/playht_tts.py:123-137 | a client is built only when none exists; on success the text is sent to the live client; after any failure the client is gone and nothing is sent; the call itself never raises |
| PlayhtTts.Cancel | agents/ten_packages/extension/playht_tts_python/playht_tts.py:139-151 | a no-op without a client; otherwise the caught `AttributeError` does not stop the cancel, which closes the current handler's stream and ends with client and handler both gone; a raising handler close changes nothing; a raising client close leaves the client set with the handler's stream already closed; handlers replaced earlier are never closed |
| PlayhtTts.OnAudioChunk | agents/ten_packages/extension/playht_tts_python/playht_tts.py:66-80 | a chunk received by any started handler whose stream is open appends exactly one item, the converted aligned part of that handler's carry plus the chunk, to the shared queue, and that handler's carry becomes the bytes left over after the aligned cut, so none is dropped; a handler with a closed stream delivers nothing; no other handler changes |
| PlayhtTts.OpenHandlerRunsHandleAudioData | agents/ten_packages/extension/playht_tts_python/playht_tts.py:61-81 | feeding a stream of chunks to one open handler of the session appends to the shared queue exactly the items of the whole handler loop started from that handler's carry, leaves the handler carrying the loop's final residual, and changes nothing else in the session |
| PlayhtTts.FailedRequestRebuildsClient | agents/ten_packages/extension/playht_tts_python/playht_tts.py:127-137 | after a failed request the client is gone, and the next successful request builds a new client with a newly started handler |
| PlayhtTts.ReplacedHandlerKeepsFeeding | agents/ten_packages/extension/playht_tts_python/playht_tts.py:97-137 | after a request fails on a live client and the next one starts a new handler, the old handler is still open, and a chunk on its stream puts an item decoded with the old handler's carry on the queue the new handler feeds |
| PlayhtTts.TwoRequestsOneClient | agents/ten_packages/extension/playht_tts_python/playht_tts.py:123-137 | two successful requests on a new session create exactly one client and send both texts to it in order |
| PlayhtTts.CancelThenRequestReconnects | agents/ten_packages/extension/playht_tts_python/playht_tts.py:123-151 | after a cancel the cancelled handler delivers nothing more, the next request constructs a new client instead of reusing the cancelled one, and a second cancel is a no-op |
| AsrResults.DefaultAsrResultFields | agents/ten_packages/extension/tencent_asr_python/asr_result.py:13-21 | a default result has zero times and slice type, empty texts, is not final, and has no word list, which differs from an empty one |
| TencentAsr.ToWords | agents/ten_packages/extension/tencent_asr_python/tencent_asr.py:20-29 | one word per raw word, in order, with base-corrected start, end-minus-start duration, copied text, and stability iff the flag is 1 |
| TencentAsr.GetAsrResultFromResponse | agents/ten_packages/extension/tencent_asr_python/tencent_asr.py:11-38 | the sentence start is base plus start, the duration is end minus start with no sign check, final iff slice type 2, slice type and text copied, language "zh-CN", and the words are the converted word list |
| TencentAsr.BaseTimeIsTranslation | agents/ten_packages/extension/tencent_asr_python/tencent_asr.py:14-34 | changing the base time moves the sentence and every word by the same amount and changes nothing else |
| TencentAsr.VendorResultIsNotDefault | agents/ten_packages/extension/tencent_asr_python/tencent_asr.py:11-38 | a result computed from a payload always has a word list, so it is never the default record |
| TencentAsr.TimestampCorrectionExample | agents/ten_packages/extension/tencent_asr_python/tencent_asr.py:20-29 | with base 1000, a word starting at 250 is reported at 1250 |
| TencentAsr.StabilityIndependentOfFinality | agents/ten_packages/extension/tencent_asr_python/tencent_asr.py:16-33 | an interim result can hold a stable word and a final result an unstable one |
| TencentAsr.CreateAsrClient | agents/ten_packages/extension/tencent_asr_python/tencent_asr.py:122-143 | the listener, whose failure handler is `stop`, is installed before the vendor constructor runs; on success a recogniser exists and the sender task is started; on failure the error propagates and the recogniser is unchanged |
| TencentAsr.Start | agents/ten_packages/extension/tencent_asr_python/tencent_asr.py:145-149 | only an existing recogniser is started; without one nothing changes |
| TencentAsr.Stop | agents/ten_packages/extension/tencent_asr_python/tencent_asr.py:172-182 | the recogniser is always gone afterwards, even when the vendor stop raises, and that error is caught; without a recogniser it reports already stopped |
| TencentAsr.StopIsIdempotent | agents/ten_packages/extension/tencent_asr_python/tencent_asr.py:172-182 | a second stop finds no recogniser and changes nothing |
| TencentAsr.OnEvent | agents/ten_packages/extension/tencent_asr_python/tencent_asr.py:53-98 | sentence-begin, result-change and sentence-end each append exactly one result computed against the listener's base; start and complete change nothing; a failure appends nothing and runs `stop` when a handler is set |
| TencentAsr.RoutingAppendsExpected | agents/ten_packages/extension/tencent_asr_python/tencent_asr.py:44-98 | a run of events appends exactly the reference results of its result-carrying events, in arrival order, against base 0 |
| TencentAsr.SendAudioFrame | agents/ten_packages/extension/tencent_asr_python/tencent_asr.py:151-167 | frames are written in queue order; the loop returns at the first empty frame, or at the first frame when there is no recogniser, or ends when a write raises; otherwise every frame is written and the coroutine waits |
| TencentAsrExtension.OnStart | agents/ten_packages/extension/tencent_asr_python/extension.py:48-68 | without all three credentials nothing happens; otherwise a client is installed and, if the vendor calls succeed, started and the consumer started; a vendor error propagates and leaves the consumer unstarted |
| TencentAsrExtension.ClientIffCredentials | agents/ten_packages/extension/tencent_asr_python/extension.py:55-65 | a fresh extension has a client after `on_start` iff app_id, secret_id and secret_key are all non-empty |
| TencentAsrExtension.OnAudioFrame | agents/ten_packages/extension/tencent_asr_python/extension.py:70-87 | without a client nothing happens; otherwise the stream id is recorded and the call raises `AttributeError` for the missing `send_audio_data` |
| TencentAsrExtension.OnStop | agents/ten_packages/extension/tencent_asr_python/extension.py:89-93 | the recogniser is stopped only when a client exists; nothing else changes |
| TencentAsrExtension.OnCmd | agents/ten_packages/extension/tencent_asr_python/extension.py:95-101 | every command is answered OK with detail "success" |
| TencentAsrExtension.CreateAndSendData | agents/ten_packages/extension/tencent_asr_python/extension.py:113-133 | nothing is sent iff the result has no word list; otherwise the text is the sentence text, the stream id the last recorded one, and end-of-segment and final both copy the result's finality |
| TencentAsrExtension.SentTextIsVoiceText | agents/ten_packages/extension/tencent_asr_python/extension.py:115-123 | the sent text is the sentence text even when the joined word texts differ |
| TencentAsrExtension.DefaultResultIsNotSent | agents/ten_packages/extension/tencent_asr_python/extension.py:115-133 | a default result is never sent, while the same result with an empty word list is sent |
| TencentAsrExtension.ProcessAsrResult | agents/ten_packages/extension/tencent_asr_python/extension.py:103-111 | stops iff the queue holds the sentinel; when every queued result has words, one record per result before the sentinel, in FIFO order, with its text and finality |
| TencentAsrExtension.EventsReachOutput | agents/ten_packages/extension/tencent_asr_python/extension.py:103-133 | end to end, a run of listener events on a fresh client yields one record per result-carrying event, in order, and the consumer keeps waiting |
| HandoffQueue.Drain | agents/ten_packages/extension/tencent_tts_python/extension.py:61-68 | the items taken are the queue's head in FIFO order; the loop stops iff the queue holds `None`, at the first one, and otherwise takes everything |
| HandoffQueue.DrainDeliversPrefix | agents/ten_packages/extension/tencent_asr_python/extension.py:103-111 | items put before the sentinel are all delivered in order, and nothing after it is taken |
| TencentTts.OnCallbackEvent | agents/ten_packages/extension/tencent_tts_python/tencent_tts.py:26-58 | the callback is closed afterwards iff it was closed or synthesis ended; audio is queued iff the callback is open; start and failure events change nothing |
| TencentTts.ClosedCallbackForwardsNothing | agents/ten_packages/extension/tencent_tts_python/tencent_tts.py:33-53 | a closed callback stays closed and queues nothing, whatever follows |
| TencentTts.ForwardsAudioUntilEnd | agents/ten_packages/extension/tencent_tts_python/tencent_tts.py:39-53 | a fresh callback queues exactly the audio that arrives before the first synthesis end, in order, and ends closed iff a synthesis end arrived |
| TencentTts.CreateSynthesizer | agents/ten_packages/extension/tencent_tts_python/tencent_tts.py:67-85 | succeeds iff the vendor calls succeed and the sample rate is an integer string; on success a fresh synthesizer with the configured settings and a new open callback on the same queue; on failure no synthesizer and the error propagates |
| TencentTts.Start | agents/ten_packages/extension/tencent_tts_python/tencent_tts.py:87-92 | only an existing synthesizer is started; without one nothing changes |
| TencentTts.TextToSpeechStream | agents/ten_packages/extension/tencent_tts_python/tencent_tts.py:97-110 | without a synthesizer nothing changes; a successful `process` records the text; any exception leaves no synthesizer |
| TencentTts.Cancel | agents/ten_packages/extension/tencent_tts_python/tencent_tts.py:112-114 | the synthesizer is gone, and the callbacks and the queue are untouched |
| TencentTts.CancelIsIdempotent | agents/ten_packages/extension/tencent_tts_python/tencent_tts.py:112-114 | cancelling twice is cancelling once |
| TencentTts.FailureDisablesRequests | agents/ten_packages/extension/tencent_tts_python/tencent_tts.py:97-110 | after a failed request later requests change nothing, since no synthesizer is re-created |
| TencentTts.EndOfSegmentIgnored | agents/ten_packages/extension/tencent_tts_python/tencent_tts.py:97 | a request does the same whatever its end-of-segment flag |
| TencentTts.CancelDoesNotSilenceCallback | agents/ten_packages/extension/tencent_tts_python/tencent_tts.py:43-53 | audio delivered to a cancelled synthesizer's open callback still reaches the shared queue |
| TencentTts.RecreateKeepsOldCallback | agents/ten_packages/extension/tencent_tts_python/tencent_tts.py:67-85 | after re-creation the old callback is still open on the same queue, so its late audio is queued |
| TencentTts.DefaultSampleRate | agents/ten_packages/extension/tencent_tts_python/tencent_tts.py:23 | the default sample rate "16000" is read as 16000 |
| TencentTtsExtension.ValidateCredentials | agents/ten_packages/extension/tencent_tts_python/extension.py:33-40 | the first missing credential in the order app_id, secret_id, secret_key is reported with its own message, the last spelled "secre_key is required"; none iff all three are present |
| TencentTtsExtension.OnStart | agents/ten_packages/extension/tencent_tts_python/extension.py:25-51 | the drain task is started in every case; a validation error is reported without installing a client; with valid credentials a client with this configuration is installed, and started when the vendor calls and the sample rate succeed |
| TencentTtsExtension.ProcessAudioData | agents/ten_packages/extension/tencent_tts_python/extension.py:61-68 | without a client the first `get_audio_bytes` raises and nothing is sent; otherwise items are sent in FIFO order up to the first `None` |
| TencentTtsExtension.OnRequestTts | agents/ten_packages/extension/tencent_tts_python/extension.py:70-74 | text and end-of-segment flag go to the client unchanged; without a client the call raises |
| TencentTtsExtension.OnCancelTts | agents/ten_packages/extension/tencent_tts_python/extension.py:76-77 | cancel is delegated to the client; without a client the call raises |
| TencentTtsExtension.MissingCredentialBreaksDrain | agents/ten_packages/extension/tencent_tts_python/extension.py:33-51 | with a missing credential no client exists, yet the drain is started and fails at once, and so do later requests |
| TencentTtsExtension.RequestAudioReachesOutput | agents/ten_packages/extension/tencent_tts_python/extension.py:25-74 | end to end, a request reaches the synthesizer, and the drain sends exactly the audio received before synthesis ends, in order |
| PyText.SplitPart1 | test_tts.py:241-242 | a part exists iff the separator occurs; it is the text after the first occurrence up to the start of the next occurrence or the end: no occurrence starts inside it, even an overlapping one |
| PyText.SplitOverlapExample | test_tts.py:241-242 | with overlapping separators the part ends at the next start: `"aaaaa".split("aa")[1]` is empty |
| PyText.Strip | test_tts.py:243-245 | the result is a contiguous slice of the input with only whitespace before and after it, and it neither starts nor ends with whitespace |
| PyText.IntRoundTrip | test_tts.py:268 | `int(str(n)) == n` for every integer |
| TtsLatency.CleanKeepsPlainPrefix | test_tts.py:51-54 | text without an escape character is kept unchanged |
| TtsLatency.CleanRemovesEscapeCode | test_tts.py:51-54 | every escape code `ESC [ params m/K` at the front is removed whole |
| TtsLatency.CleanKeepsUnmatchedChar | test_tts.py:51-54 | a character that does not start an escape code, a lone escape character included, is kept and cleaning resumes right after it |
| TtsLatency.CleanColouredTimestamp | test_tts.py:51-54 | a colour-wrapped timestamp comes out bare |
| TtsLatency.CleanIsNotIdempotent | test_tts.py:51-54 | a single left-to-right pass can leave a new escape code behind, which a second pass removes |
| TtsLatency.FormatOneSlot | test_tts.py:56-57 | a template with exactly one `%s` between escaped literals gives the literals with the vendor between them |
| TtsLatency.FormatWithoutSlot | test_tts.py:56-57 | a template without a conversion raises `TypeError` |
| TtsLatency.FormatTwoSlots | test_tts.py:56-57 | a template with two `%s` raises `TypeError` |
| TtsLatency.DefaultPropertyJson | test_tts.py:23 | the default template gives "/app/tests_tts_property/test_tts_<vendor>_property.json" |
| TtsLatency.BasenameIsLastComponent | test_tts.py:109 | the basename is a separator-free suffix of the path, preceded by '/' unless it is the whole path |
| TtsLatency.BasenameOfJoin | test_tts.py:106-111 | joining a separator-free name onto a directory and taking the basename gives the name back |
| TtsLatency.GetWorkerLogFile | test_tts.py:105-111 | the worker log path is the logs directory, with a separator, followed by "tts_test_worker_<batch>_<basename>_<vendor>.log" |
| TtsLatency.WorkerLogFileName | test_tts.py:105-111 | with separator-free batch and vendor, the log sits directly in the logs directory under that name |
| TtsLatency.WorkerLogPerVendor | test_tts.py:105-111 | different vendors write different worker logs for the same text file |
| TtsLatency.Marks | test_tts.py:236-260 | a line is a send (receive) line iff it contains the marker, and its stamp is the cleaned stripped text after "marker:" when the line has that separator |
| TtsLatency.OnSend | test_tts.py:236-249 | a send line counts a send, marks it found, forgets the receive and takes the start stamp when present; other lines change nothing |
| TtsLatency.OnReceived | test_tts.py:251-260 | a receive line marks a receive and takes the end stamp when present; other lines change nothing |
| TtsLatency.ScanLine | test_tts.py:236-288 | after the send and receive blocks, a row is emitted or the scan aborts exactly when a row is due (send and receive found, more than one send); it aborts exactly when a due row has a non-integer stamp, and otherwise emits a row carrying both stamps and end minus start, which uses up the send; the stamps and the receive flag are those the two blocks left |
| TtsLatency.BadStampAbortsFile | test_tts.py:262-288 | a line that makes a row due while a stamp is not an integer ends the file's scan: no row from it and no later line read |
| TtsLatency.RowsBoundedBySends | test_tts.py:262-285 | a log yields at most one row per send line after the first |
| TtsLatency.ScanAppend | test_tts.py:233-288 | scanning two runs of lines is scanning the first and then the second from where it left off; after an abort nothing more is read and the rows already emitted are kept |
| TtsLatency.WellFormedLogTimings | test_tts.py:236-285 | against a reference: for a log of requests, each a send line and its receive lines, the rows are the send-to-first-receive latencies of every request but the first, in order |
| TtsLatency.RowsOf | test_tts.py:273-282 | one row per timing, tagged with the text file's basename and the vendor |
| TtsLatency.StatAppend | test_tts.py:222-235 | the scan state is reset per log: the rows of a list of text files are the rows of its parts, one after another |
| TtsLatency.StatOfOnePair | test_tts.py:222-288 | for one text file and vendor, the rows are exactly those of that pair's worker log |
| TtsLatency.FileRowsBounded | test_tts.py:222-288 | each vendor's log contributes at most one row per send line after its first |

## Left out

- IEEE 754 binary32 decoding and numpy's `frombuffer`/`astype`: the per-sample float-times-32768 value is the `scaled` parameter; only clipping, encoding and sample order are modelled.
- asyncio: event loops, `create_task`, `run_coroutine_threadsafe` and the vendor SDK threads. Producer and consumer steps are modelled one after another on sequence queues; interleavings are not.
- The vendor SDKs themselves (pyht `AsyncClient`, `SpeechRecognizer`, `FlowingSpeechSynthesizer`) are opaque steps that succeed or raise; their settings are recorded, not interpreted.
- PlayhtTts: `send_text_to_speech`'s `if not self.in_stream` and `_handle_audio_data`'s `if not self.out_stream` early returns are folded into the `Step` of the send, since the stream pair is always set when a handler exists.
- TencentAsr.SendAudioFrame: the audio frame queue is a finite sequence; the coroutine waiting on an empty queue is reported as `Waiting`.
- TencentAsr.CreateAsrClient: the `credential.Credential` constructor, which runs before the listener is installed, is taken not to raise; the vendor step covers the `SpeechRecognizer` constructor and its setters.
- TencentAsr.SendAudioFrame: the recogniser is read once, before the loop. The code checks `self.recognizer` again for every frame, and an `on_fail` event that stops the client between two frames would end the loop there; that interleaving is not modelled.
- The extension-host surface (`AsyncTenEnv`, `Data`, `Cmd`, property getters, `return_result`) is reduced to the values passed in and out; all logging is left out.
- agents/ten_packages/extension/playht_tts_python/extension.py, agents/ten_packages/extension/bytedance_tts/extension.py, both addon.py files and the tts_test_tool_python extension and config: host glue, registration and defaults, not part of this model.
- test_tts.py: subprocess start and stop, sleeps, property JSON rewriting, directory scanning, the CSV header and file writing, and splitting a file into lines are left out; a worker log is given as its lines.
- `int()`: Unicode digits beyond ASCII are not modelled; the `ValueError` messages are simplified.
- `%` formatting: the model treats every conversion other than `%s` and `%%`, and every flag or width, as an error (`ValueError`). Python accepts `%r`, `%a`, a one-character `%c` and flags or widths such as `%5s`, and raises `TypeError` for `%d` on a string. The only template the test driver formats, `DefaultPropertyTemplate`, contains just `%s`.
- Vendor payloads are typed records, so the `KeyError`s of missing payload fields are not modelled.
- TencentAsr.RoutingAppendsExpected: stated for a listener whose time base is 0, which is the only value the code ever gives it.

=== FILE: asr_result.dfy ===
/** The recognition records of the Tencent ASR bridge (`asr_result.py`). */
module AsrResults {
  import opened Common

  /** One recognised word. All four fields are mandatory: `Word` has no
      defaults. `isFinal` is the vendor's per-word stability. */
  datatype Word = Word(textTime: int, durationMs: int, text: string, isFinal: bool)

  /** One incremental recognition result. `words` is `None` unless set,
      which is not the same as an empty word list. */
  datatype AsrResult = AsrResult(
    textTime: int,
    language: string,
    sliceType: int,
    durationMs: int,
    words: Option<seq<Word>>,
    voiceTextStr: string,
    isFinal: bool)

  /** `AsrResult()` with every field left at its dataclass default. */
  const DefaultAsrResult: AsrResult := AsrResult(0, "", 0, 0, None, "", false)

  /** The defaults: zero times and slice type, empty language and text, not
      final, and no word list at all (not an empty one). */
  lemma DefaultAsrResultFields()
    ensures DefaultAsrResult.textTime == 0 && DefaultAsrResult.durationMs == 0
    ensures DefaultAsrResult.sliceType == 0 && !DefaultAsrResult.isFinal
    ensures DefaultAsrResult.language == "" && DefaultAsrResult.voiceTextStr == ""
    ensures DefaultAsrResult.words.None? && DefaultAsrResult.words != Some([])
  {
  }
}

=== FILE: common.dfy ===
/** Shared vocabulary of the speech bridge model: optional values (Python's
    `None`), bytes, and the exceptions the modelled code raises or catches. */
module Common {

  /** Python's `None` versus a present value. */
  datatype Option<+T> = None | Some(value: T)

  /** One byte of a Python `bytes`/`bytearray`. */
  type byte = x: int | 0 <= x < 256

  type bytes = seq<byte>

  /** The Python exceptions that decide control flow in the modelled code.
      `VendorError` stands for any exception raised inside a vendor SDK,
      `ConnectionClosed` for `WebSocketConnectionClosedException`. */
  datatype PyError =
    | AttributeError(name: string)
    | TypeError
    | ValueError(message: string)
    | ConnectionClosed
    | VendorError

  /** A value, or the exception raised instead of computing it. */
  datatype Result<+T> = Ok(value: T) | Err(error: PyError)

  /** Whether a vendor operation that may raise does so. */
  datatype Step = Succeeds | Raises(error: PyError)
}

=== FILE: handoff_queue.dfy ===
/** The `asyncio.Queue` hand-off between a vendor callback (producer) and an
    extension's consumer loop, with `None` as the end-of-stream sentinel.
    A queue is the sequence of everything put into it, oldest first; the
    producer appends and the consumer takes from the head. */
module HandoffQueue {
  import opened Common

  type Queue<T> = seq<Option<T>>

  /** `queue.put(item)` run to completion. */
  function Put<T>(q: Queue<T>, item: Option<T>): Queue<T>
  {
    q + [item]
  }

  /** The queue holding exactly `xs`, each as a real (non-sentinel) item. */
  function Items<T>(xs: seq<T>): (q: Queue<T>)
    ensures |q| == |xs|
    ensures forall i :: 0 <= i < |xs| ==> q[i] == Some(xs[i])
  {
    seq(|xs|, i requires 0 <= i < |xs| => Some(xs[i]))
  }

  /** What a consumer loop `while True: x = await q.get(); if x is None: break; ...`
      took out of a queue: the items it forwarded, and whether it stopped at
      the sentinel (`false`: it is still suspended in `get` on an empty queue). */
  datatype Drained<T> = Drained(delivered: seq<T>, stopped: bool)

  /** The consumer loop over queue `q`: forwards items in FIFO order and stops
      at the first `None`; nothing after the sentinel is taken. */
  function Drain<T>(q: Queue<T>): (d: Drained<T>)
    ensures |d.delivered| <= |q|
    ensures forall i :: 0 <= i < |d.delivered| ==> q[i] == Some(d.delivered[i])
    ensures d.stopped <==> None in q
    ensures d.stopped ==> q[|d.delivered|] == None
    ensures !d.stopped ==> |d.delivered| == |q|
  {
    if |q| == 0 then Drained([], false)
    else match q[0]
      case None => Drained([], true)
      case Some(x) =>
        var rest := Drain(q[1..]);
        Drained([x] + rest.delivered, rest.stopped)
  }

  /** Items put before the sentinel are all delivered, in the order they were
      put, and whatever follows the sentinel is never taken. */
  lemma {:induction false} DrainDeliversPrefix<T>(xs: seq<T>, tail: Queue<T>)
    ensures Drain(Items(xs) + [None] + tail) == Drained(xs, true)
  {
    var q := Items(xs) + [None] + tail;
    assert q[|xs|] == None;
    assert forall i :: 0 <= i < |xs| ==> q[i] == Some(xs[i]);
  }

  /** Without a sentinel the consumer forwards everything and keeps waiting. */
  lemma {:induction false} DrainWithoutSentinel<T>(xs: seq<T>)
    ensures Drain(Items(xs)) == Drained(xs, false)
  {
  }
}

=== FILE: pcm.dfy ===
/** Linear-PCM sample conversion: 32-bit float little-endian samples to
    signed 16-bit little-endian samples, scaled by 32768 and clipped to the
    int16 range (`convert_f32le_to_s16le_stream`).

    Decoding IEEE 754 binary32 is not modelled: the caller supplies
    `scaled`, which maps one 4-byte float32-LE sample to the integer that
    `sample * 32768` becomes under numpy's truncating `astype`, before
    clipping. Everything after that (clipping, int16 two's-complement
    encoding, sample order) is modelled exactly. */
module Pcm {
  import opened Common

  const Int16Min: int := -32768
  const Int16Max: int := 32767

  predicate InInt16(v: int)
  {
    Int16Min <= v <= Int16Max
  }

  /** `np.clip(v, -32768, 32767)`. */
  function Clip(v: int): (r: int)
    ensures InInt16(r)
    ensures InInt16(v) ==> r == v
    ensures v < Int16Min ==> r == Int16Min
    ensures v > Int16Max ==> r == Int16Max
  {
    if v < Int16Min then Int16Min else if v > Int16Max then Int16Max else v
  }

  /** The signed value of a 2-byte little-endian two's-complement integer. */
  function DecodeInt16Le(b: bytes): (v: int)
    requires |b| == 2
    ensures InInt16(v)
  {
    var u: int := (b[0] as int) + 256 * (b[1] as int);
    if u >= 32768 then u - 65536 else u
  }

  /** The 2-byte little-endian two's-complement encoding of an int16 value. */
  function EncodeInt16Le(v: int): (b: bytes)
    requires InInt16(v)
    ensures |b| == 2
    ensures DecodeInt16Le(b) == v
  {
    var u: int := if v < 0 then v + 65536 else v;
    [u % 256, u / 256]
  }

  /** The i-th 4-byte sample of a float32 buffer. */
  function F32Sample(input: bytes, i: nat): (s: bytes)
    requires 4 * i + 4 <= |input|
    ensures |s| == 4
  {
    input[4 * i .. 4 * i + 4]
  }

  /** The value of the i-th int16 sample of a 16-bit buffer. */
  function S16Sample(output: bytes, i: nat): int
    requires 2 * i + 2 <= |output|
  {
    DecodeInt16Le(output[2 * i .. 2 * i + 2])
  }

  /** `convert_f32le_to_s16le_stream`: `np.frombuffer(..., float32)` rejects a
      buffer whose length is not a multiple of 4, hence the precondition.
      Output sample i is the clipped scaled value of input sample i, so the
      output is exactly half as long as the input. */
  function ConvertF32leToS16le(scaled: bytes -> int, input: bytes): (out: bytes)
    requires |input| % 4 == 0
    ensures |out| == |input| / 2
    ensures forall i: nat :: i < |input| / 4 ==>
              S16Sample(out, i) == Clip(scaled(F32Sample(input, i)))
    decreases |input|
  {
    if |input| == 0 then []
    else
      var head := EncodeInt16Le(Clip(scaled(input[..4])));
      var rest := ConvertF32leToS16le(scaled, input[4..]);
      ShiftSamples(input, head, rest);
      head + rest
  }

  /** Sample i + 1 of `head + rest` (a 2-byte head) is sample i of `rest`, and
      likewise for the 4-byte samples of `input`. */
  lemma ShiftSamples(input: bytes, head: bytes, rest: bytes)
    requires |input| >= 4 && |input| % 4 == 0
    requires |head| == 2 && |rest| == (|input| - 4) / 2
    ensures forall i: nat :: 0 < i < |input| / 4 ==>
              S16Sample(head + rest, i) == S16Sample(rest, i - 1)
              && F32Sample(input, i) == F32Sample(input[4..], i - 1)
    ensures F32Sample(input, 0) == input[..4]
    ensures S16Sample(head + rest, 0) == DecodeInt16Le(head)
  {
    forall i: nat | 0 < i < |input| / 4
      ensures S16Sample(head + rest, i) == S16Sample(rest, i - 1)
      ensures F32Sample(input, i) == F32Sample(input[4..], i - 1)
    {
      assert (head + rest)[2 * i .. 2 * i + 2] == rest[2 * (i - 1) .. 2 * (i - 1) + 2];
    }
    assert (head + rest)[0..2] == head;
  }

  /** Converting a buffer piecewise at a sample boundary equals converting it
      whole: conversion never splits or drops a sample. */
  lemma {:induction false} ConvertConcat(scaled: bytes -> int, a: bytes, b: bytes)
    requires |a| % 4 == 0 && |b| % 4 == 0
    ensures ConvertF32leToS16le(scaled, a + b)
            == ConvertF32leToS16le(scaled, a) + ConvertF32leToS16le(scaled, b)
    decreases |a|
  {
    if |a| == 0 {
      assert a + b == b;
    } else {
      assert (a + b)[..4] == a[..4];
      assert (a + b)[4..] == a[4..] + b;
      ConvertConcat(scaled, a[4..], b);
    }
  }
}

=== FILE: playht_tts.dfy ===
/** The Play.ht TTS client (`playht_tts.py`): float32 audio arrives from the
    vendor in chunks of arbitrary length; the client handler realigns them on
    4-byte sample boundaries, converts each aligned run to int16 and puts one
    item per chunk on the shared audio queue. `PlayhtTts` is the session that
    creates the vendor client lazily, drops it on any error and tears it down
    on cancel. */
module PlayhtTts {
  import opened Common
  import opened HandoffQueue
  import opened Pcm

  /** All chunks joined end to end, in order. */
  function Flatten(chunks: seq<bytes>): (r: bytes)
  {
    if |chunks| == 0 then [] else chunks[0] + Flatten(chunks[1..])
  }

  lemma {:induction false} FlattenAppend(a: seq<bytes>, b: seq<bytes>)
    ensures Flatten(a + b) == Flatten(a) + Flatten(b)
    decreases |a|
  {
    if |a| == 0 {
      assert a + b == b;
    } else {
      assert (a + b)[1..] == a[1..] + b;
      FlattenAppend(a[1..], b);
    }
  }

  // ---------------------------------------------------------------------
  // Sample reassembly (`PlayhtTTSClientHandler._handle_audio_data`)
  // ---------------------------------------------------------------------

  /** The effect of one received chunk: the bytes handed to the converter,
      the bytes carried to the next chunk, and the item put on the queue. */
  datatype ChunkStep = ChunkStep(aligned: bytes, residual: bytes, item: bytes)

  /** One iteration of the `async for chunk in self.out_stream` loop: the
      carried buffer and the chunk are joined and cut at the largest multiple
      of 4; the tail is carried, the head is converted. */
  function HandleChunk(scaled: bytes -> int, buffer: bytes, chunk: bytes): (s: ChunkStep)
    ensures s.aligned + s.residual == buffer + chunk
    ensures |s.aligned| % 4 == 0
    ensures |s.residual| < 4
    ensures |s.residual| == 0 <==> (|buffer| + |chunk|) % 4 == 0
    ensures |s.item| == |s.aligned| / 2 && |s.item| % 2 == 0
    ensures forall i: nat :: i < |s.aligned| / 4 ==>
              S16Sample(s.item, i) == Clip(scaled(F32Sample(s.aligned, i)))
  {
    var data := buffer + chunk;
    if |data| % 4 != 0 then
      var validLength := |data| - |data| % 4;
      ChunkStep(data[..validLength], data[validLength..],
                ConvertF32leToS16le(scaled, data[..validLength]))
    else
      ChunkStep(data, [], ConvertF32leToS16le(scaled, data))
  }

  /** The handler loop over a whole chunk stream, starting from `buffer`:
      `items` are the queue items in arrival order, `aligned` the converted
      runs, `residual` the bytes still carried at the end. */
  datatype Reassembly = Reassembly(items: seq<bytes>, aligned: seq<bytes>, residual: bytes)

  /** Each queue item is the conversion of the aligned run at the same
      position. */
  predicate ConvertedRuns(scaled: bytes -> int, items: seq<bytes>, aligned: seq<bytes>)
  {
    && |items| == |aligned|
    && forall i :: 0 <= i < |aligned| ==>
         |aligned[i]| % 4 == 0 && items[i] == ConvertF32leToS16le(scaled, aligned[i])
  }

  lemma ConvertedRunsCons(scaled: bytes -> int, item: bytes, run: bytes, items: seq<bytes>, aligned: seq<bytes>)
    requires |run| % 4 == 0 && item == ConvertF32leToS16le(scaled, run)
    requires ConvertedRuns(scaled, items, aligned)
    ensures ConvertedRuns(scaled, [item] + items, [run] + aligned)
  {
    var xs, ys := [item] + items, [run] + aligned;
    forall i | 0 <= i < |ys| ensures |ys[i]| % 4 == 0 && xs[i] == ConvertF32leToS16le(scaled, ys[i]) {
      if i > 0 {
        assert xs[i] == items[i - 1] && ys[i] == aligned[i - 1];
      }
    }
  }

  /** Joining buffer and chunk, then cutting, then going on with the rest of
      the chunks joins back to the buffer and all the chunks. */
  lemma RejoinStep(buffer: bytes, chunks: seq<bytes>, aligned: bytes, residual: bytes, runs: seq<bytes>, last: bytes)
    requires |chunks| > 0
    requires aligned + residual == buffer + chunks[0]
    requires Flatten(runs) + last == residual + Flatten(chunks[1..])
    ensures Flatten([aligned] + runs) + last == buffer + Flatten(chunks)
  {
    var later := Flatten(chunks[1..]);
    assert ([aligned] + runs)[1..] == runs;
    assert Flatten([aligned] + runs) + last == aligned + (residual + later);
    assert aligned + (residual + later) == (buffer + chunks[0]) + later;
  }

  /** Adding whole samples in front of a length does not change where that
      length is cut at a sample boundary. */
  lemma AlignedCutShift(k: nat, y: nat)
    ensures (4 * k + y) / 4 * 4 == 4 * k + y / 4 * 4
  {
    assert (4 * k + y) / 4 == k + y / 4;
  }

  /** After the first `i` chunks, the aligned runs handed to the converter
      total exactly the largest multiple of 4 not above the bytes received so
      far: the handler converts every whole sample as soon as it is
      complete. */
  predicate AlignedPrefixes(buffer: bytes, chunks: seq<bytes>, aligned: seq<bytes>)
    requires |aligned| == |chunks|
  {
    forall i :: 0 < i <= |chunks| ==>
      |Flatten(aligned[..i])| == (|buffer| + |Flatten(chunks[..i])|) / 4 * 4
  }

  /** One step of the fold keeps `AlignedPrefixes`. */
  lemma AlignedPrefixesStep(buffer: bytes, chunks: seq<bytes>, head: bytes, residual: bytes, later: seq<bytes>)
    requires |chunks| > 0 && |later| == |chunks| - 1
    requires head + residual == buffer + chunks[0] && |head| % 4 == 0 && |residual| < 4
    requires AlignedPrefixes(residual, chunks[1..], later)
    ensures AlignedPrefixes(buffer, chunks, [head] + later)
  {
    var all := [head] + later;
    var k := |head| / 4;
    forall i | 0 < i <= |chunks|
      ensures |Flatten(all[..i])| == (|buffer| + |Flatten(chunks[..i])|) / 4 * 4
    {
      assert all[..i][1..] == later[..i - 1];
      assert chunks[..i][1..] == chunks[1..][..i - 1];
      var u := |Flatten(chunks[1..][..i - 1])|;
      if i > 1 {
        assert |Flatten(later[..i - 1])| == (|residual| + u) / 4 * 4;
      } else {
        assert later[..0] == [] && chunks[1..][..0] == [];
      }
      AlignedCutShift(k, |residual| + u);
      assert |buffer| + |Flatten(chunks[..i])| == 4 * k + (|residual| + u);
    }
  }

  function HandleAudioData(scaled: bytes -> int, buffer: bytes, chunks: seq<bytes>): (r: Reassembly)
    ensures |r.items| == |chunks| && |r.aligned| == |chunks|
    ensures |chunks| > 0 || |buffer| < 4 ==> |r.residual| < 4
    ensures Flatten(r.aligned) + r.residual == buffer + Flatten(chunks)
    ensures ConvertedRuns(scaled, r.items, r.aligned)
    ensures AlignedPrefixes(buffer, chunks, r.aligned)
    decreases |chunks|
  {
    if |chunks| == 0 then Reassembly([], [], buffer)
    else
      var step := HandleChunk(scaled, buffer, chunks[0]);
      var rest := HandleAudioData(scaled, step.residual, chunks[1..]);
      RejoinStep(buffer, chunks, step.aligned, step.residual, rest.aligned, rest.residual);
      ConvertedRunsCons(scaled, step.item, step.aligned, rest.items, rest.aligned);
      AlignedPrefixesStep(buffer, chunks, step.aligned, step.residual, rest.aligned);
      Reassembly([step.item] + rest.items, [step.aligned] + rest.aligned, rest.residual)
  }

  /** A run of aligned pieces has a length divisible by 4. */
  lemma {:induction false} FlattenAligned(pieces: seq<bytes>)
    requires forall i :: 0 <= i < |pieces| ==> |pieces[i]| % 4 == 0
    ensures |Flatten(pieces)| % 4 == 0
    decreases |pieces|
  {
    if |pieces| > 0 {
      FlattenAligned(pieces[1..]);
    }
  }

  /** The queue items of a reassembly, joined, are the conversion of the
      aligned runs joined. */
  lemma {:induction false} ItemsAreConvertedRuns(scaled: bytes -> int, items: seq<bytes>, aligned: seq<bytes>)
    requires ConvertedRuns(scaled, items, aligned)
    ensures |Flatten(aligned)| % 4 == 0
    ensures Flatten(items) == ConvertF32leToS16le(scaled, Flatten(aligned))
    decreases |items|
  {
    FlattenAligned(aligned);
    if |items| > 0 {
      ItemsAreConvertedRuns(scaled, items[1..], aligned[1..]);
      FlattenAligned(aligned[1..]);
      ConvertConcat(scaled, aligned[0], Flatten(aligned[1..]));
    }
  }

  /** A tail shorter than one sample between two sample boundaries is empty. */
  lemma AlignedTailIsEmpty(head: nat, tail: nat, total: nat)
    requires head % 4 == 0 && total % 4 == 0 && head + tail == total && tail < 4
    ensures tail == 0
  {
    var k := head / 4;
    var m := total / 4;
    assert tail == 4 * (m - k);
  }

  /** Reassembly correctness: for a fresh handler and chunks whose total
      length is a multiple of 4, the queue items joined equal converting the
      whole byte stream at once, and nothing is left carried. */
  lemma {:induction false} ChunkedEqualsWhole(scaled: bytes -> int, chunks: seq<bytes>)
    requires |Flatten(chunks)| % 4 == 0
    ensures HandleAudioData(scaled, [], chunks).residual == []
    ensures Flatten(HandleAudioData(scaled, [], chunks).items)
            == ConvertF32leToS16le(scaled, Flatten(chunks))
  {
    var r := HandleAudioData(scaled, [], chunks);
    ItemsAreConvertedRuns(scaled, r.items, r.aligned);
    var whole := Flatten(chunks);
    var runs := Flatten(r.aligned);
    assert runs + r.residual == [] + whole;
    assert |r.residual| == |whole| - |runs|;
    assert |r.residual| < 4;
    assert |runs| % 4 == 0;
    assert |whole| % 4 == 0;
    assert |runs| + |r.residual| == |whole|;
    AlignedTailIsEmpty(|runs|, |r.residual|, |whole|);
    assert r.residual == [];
    assert runs == whole by {
      assert runs + r.residual == runs;
    }
  }

  /** The float32 samples 1.0, -1.0 and 0.5 (little-endian 00 00 80 3F,
      00 00 80 BF, 00 00 00 3F) cut into a 5-byte and a 7-byte chunk. */
  const ExampleChunk0: bytes := [0x00, 0x00, 0x80, 0x3F, 0x00]
  const ExampleChunk1: bytes := [0x00, 0x80, 0xBF, 0x00, 0x00, 0x00, 0x3F]

  predicate ExampleScaling(scaled: bytes -> int)
  {
    && scaled([0x00, 0x00, 0x80, 0x3F]) == 32768
    && scaled([0x00, 0x00, 0x80, 0xBF]) == -32768
    && scaled([0x00, 0x00, 0x00, 0x3F]) == 16384
  }

  lemma ExampleFirstChunk(scaled: bytes -> int)
    requires ExampleScaling(scaled)
    ensures var s := HandleChunk(scaled, [], ExampleChunk0);
            s.residual == [0x00] && |s.item| == 2 && S16Sample(s.item, 0) == 32767
  {
    var s := HandleChunk(scaled, [], ExampleChunk0);
    assert s.aligned == [0x00, 0x00, 0x80, 0x3F] && s.residual == [0x00];
    assert F32Sample(s.aligned, 0) == [0x00, 0x00, 0x80, 0x3F];
  }

  lemma ExampleSecondChunk(scaled: bytes -> int)
    requires ExampleScaling(scaled)
    ensures var s := HandleChunk(scaled, [0x00], ExampleChunk1);
            && s.residual == [] && |s.item| == 4
            && S16Sample(s.item, 0) == -32768 && S16Sample(s.item, 1) == 16384
  {
    var s := HandleChunk(scaled, [0x00], ExampleChunk1);
    assert s.aligned == [0x00, 0x00, 0x80, 0xBF, 0x00, 0x00, 0x00, 0x3F] && s.residual == [];
    assert F32Sample(s.aligned, 0) == [0x00, 0x00, 0x80, 0xBF];
    assert F32Sample(s.aligned, 1) == [0x00, 0x00, 0x00, 0x3F];
  }

  /** Delivered as a 5-byte and a 7-byte chunk, the samples 1.0, -1.0 and 0.5
      come out as the int16 samples 32767 (1.0 scales to 32768, which is
      clipped), -32768 and 16384: one sample in the first item, two in the
      second, nothing carried. */
  lemma SplitSamplesExample(scaled: bytes -> int)
    requires ExampleScaling(scaled)
    ensures var r := HandleAudioData(scaled, [], [ExampleChunk0, ExampleChunk1]);
            && |r.items| == 2 && |r.items[0]| == 2 && |r.items[1]| == 4
            && S16Sample(r.items[0], 0) == 32767
            && S16Sample(r.items[1], 0) == -32768
            && S16Sample(r.items[1], 1) == 16384
            && r.residual == []
  {
    ExampleFirstChunk(scaled);
    ExampleSecondChunk(scaled);
    var s0 := HandleChunk(scaled, [], ExampleChunk0);
    var s1 := HandleChunk(scaled, [0x00], ExampleChunk1);
    var r1 := HandleAudioData(scaled, [0x00], [ExampleChunk1]);
    assert [ExampleChunk1][1..] == [];
    assert r1.items == [s1.item] && r1.residual == [];
    var r := HandleAudioData(scaled, [], [ExampleChunk0, ExampleChunk1]);
    assert [ExampleChunk0, ExampleChunk1][1..] == [ExampleChunk1];
    assert r.items == [s0.item] + r1.items;
  }

  // ---------------------------------------------------------------------
  // Session (`PlayhtTTS`)
  // ---------------------------------------------------------------------

  /** A `PlayhtTTSClientHandler`: its carried bytes and whether `close` has
      closed its output stream. */
  datatype Handler = Handler(buffer: bytes, streamClosed: bool)

  /** A `PlayhtTTS` instance. `client` is the live `AsyncClient`, named by
      its creation number; `created` counts clients constructed so far;
      `sent` lists the texts handed to a vendor input stream; `queue` is the
      audio queue shared by every handler of this session.

      `handlers` holds every handler this session has started, in order:
      replacing `self.handler` does not stop the task the old handler
      started, so that task keeps reading its own stream and putting items
      on the shared queue. `handler` is the index of `self.handler` in it. */
  datatype PlayhtTts = PlayhtTts(
    client: Option<nat>,
    handler: Option<nat>,
    handlers: seq<Handler>,
    queue: Queue<bytes>,
    created: nat,
    sent: seq<string>)

  /** `PlayhtTTS.__init__`. */
  const NewPlayhtTts: PlayhtTts := PlayhtTts(None, None, [], [], 0, [])

  /** A live client always comes with its handler, and `handler` names a
      started handler. */
  predicate Valid(s: PlayhtTts)
  {
    && (s.client.Some? ==> s.handler.Some?)
    && (s.handler.Some? ==> s.handler.value < |s.handlers|)
  }

  /** Where `create_synthesizer` can raise: constructing `AsyncClient`, or
      `get_stream_pair`. */
  datatype CreateFault = CreateOk | ClientRaises(e: PyError) | StreamPairRaises(e: PyError)

  /** A state after an operation, and the exception it raised, if any. */
  datatype Outcome = Outcome(state: PlayhtTts, raised: Option<PyError>)

  /** A fresh handler whose task has just started. */
  const StartedHandler: Handler := Handler([], false)

  /** `create_synthesizer`: any existing client is dropped, a new client is
      constructed, and a fresh handler with an empty buffer is started on
      the same queue and becomes the current one; earlier handlers are left
      running. If `get_stream_pair` raises, the new client stays set but no
      handler is started. */
  function CreateSynthesizer(s: PlayhtTts, fault: CreateFault): (o: Outcome)
    ensures o.state.queue == s.queue && o.state.sent == s.sent
    ensures fault == CreateOk ==>
              o.raised == None
              && o.state.client == Some(s.created) && o.state.created == s.created + 1
              && o.state.handlers == s.handlers + [StartedHandler]
              && o.state.handler == Some(|s.handlers|)
    ensures fault.ClientRaises? ==>
              o.raised == Some(fault.e) && o.state.client == None
              && o.state.handler == s.handler && o.state.handlers == s.handlers
              && o.state.created == s.created
    ensures fault.StreamPairRaises? ==>
              o.raised == Some(fault.e) && o.state.client == Some(s.created)
              && o.state.handler == s.handler && o.state.handlers == s.handlers
              && o.state.created == s.created + 1
  {
    var dropped := s.(client := None);
    match fault
    case ClientRaises(e) => Outcome(dropped, Some(e))
    case StreamPairRaises(e) =>
      Outcome(dropped.(client := Some(s.created), created := s.created + 1), Some(e))
    case CreateOk =>
      Outcome(dropped.(client := Some(s.created), created := s.created + 1,
                       handler := Some(|s.handlers|),
                       handlers := s.handlers + [StartedHandler]), None)
  }

  /** `text_to_speech_stream`: creates a client only when none exists, then
      sends the text through the handler. Both `except` branches catch
      everything the body raises and drop the client, so the call itself
      never raises and the next call rebuilds the client. The
      `end_of_segment` argument is not used. */
  function TextToSpeechStream(s: PlayhtTts, text: string, endOfSegment: bool,
                              create: CreateFault, send: Step): (r: PlayhtTts)
    requires Valid(s)
    ensures Valid(r)
    ensures r.queue == s.queue
    ensures |s.handlers| <= |r.handlers| && r.handlers[..|s.handlers|] == s.handlers
    ensures s.client.Some? ==>
              r.created == s.created && r.handler == s.handler && r.handlers == s.handlers
    ensures s.client.None? && create == CreateOk ==>
              r.created == s.created + 1 && r.handler == Some(|s.handlers|)
              && r.handlers == s.handlers + [StartedHandler]
    ensures (s.client.Some? || create == CreateOk) && send == Succeeds ==>
              r.client == (if s.client.Some? then s.client else Some(s.created))
              && r.sent == s.sent + [text]
    ensures (s.client.None? && create != CreateOk) || send.Raises? ==>
              r.client == None && r.sent == s.sent
  {
    var created :=
      if s.client.None? then CreateSynthesizer(s, create) else Outcome(s, None);
    assert created.state.handlers[..|s.handlers|] == s.handlers;
    if created.raised.Some? then created.state.(client := None)
    else match send
      case Raises(_) => created.state.(client := None)
      case Succeeds => created.state.(sent := created.state.sent + [text])
  }

  /** Where `cancel` can raise outside its `try`: `handler.close()` closing
      the vendor output stream, or `client.close()`. */
  datatype CancelFault = CancelOk | HandlerCloseRaises(e: PyError) | ClientCloseRaises(e: PyError)

  /** `handlers` with the stream of handler `id` closed. */
  function CloseHandler(handlers: seq<Handler>, id: nat): (r: seq<Handler>)
    requires id < |handlers|
    ensures |r| == |handlers| && r[id].streamClosed && r[id].buffer == handlers[id].buffer
    ensures forall i :: 0 <= i < |handlers| && i != id ==> r[i] == handlers[i]
  {
    handlers[id := handlers[id].(streamClosed := true)]
  }

  /** `cancel`. Its `try` block reads `self.out_stream`, an attribute
      `PlayhtTTS` never defines, so it always raises `AttributeError`, which
      the generic `except` catches and logs; the cancel then goes on to close
      the current handler and the client and forget both. Only the current
      handler is closed; a handler replaced earlier is not reachable from
      the session any more and keeps running. */
  function Cancel(s: PlayhtTts, fault: CancelFault): (o: Outcome)
    requires Valid(s)
    ensures Valid(o.state)
    ensures o.state.queue == s.queue && o.state.created == s.created && o.state.sent == s.sent
    ensures |o.state.handlers| == |s.handlers|
    ensures s.client.None? ==> o == Outcome(s, None)
    ensures s.client.Some? && fault == CancelOk ==>
              && o.raised == None && o.state.client == None && o.state.handler == None
              && o.state.handlers == CloseHandler(s.handlers, s.handler.value)
    ensures s.client.Some? && fault.HandlerCloseRaises? ==> o == Outcome(s, Some(fault.e))
    ensures s.client.Some? && fault.ClientCloseRaises? ==>
              && o.raised == Some(fault.e) && o.state.client == s.client
              && o.state.handler == s.handler
              && o.state.handlers == CloseHandler(s.handlers, s.handler.value)
  {
    if s.client.None? then Outcome(s, None)
    else
      // `self.out_stream.close()` raises AttributeError("out_stream"); caught and logged.
      var closed := CloseHandler(s.handlers, s.handler.value);
      match fault
      case HandlerCloseRaises(e) => Outcome(s, Some(e))
      case ClientCloseRaises(e) => Outcome(s.(handlers := closed), Some(e))
      case CancelOk => Outcome(s.(handler := None, client := None, handlers := closed), None)
  }

  /** The task of handler `id` receiving one chunk from its vendor stream:
      the handler's buffer is replaced by the new residual and exactly one
      item is put on the shared queue. Any started handler can receive a
      chunk, current or not; once its stream is closed its `async for` loop
      ends and nothing more arrives. */
  function OnAudioChunk(scaled: bytes -> int, s: PlayhtTts, id: nat, chunk: bytes): (r: PlayhtTts)
    requires Valid(s) && id < |s.handlers|
    ensures Valid(r) && r.client == s.client && r.handler == s.handler
    ensures r.created == s.created && r.sent == s.sent
    ensures |r.handlers| == |s.handlers|
    ensures forall i :: 0 <= i < |s.handlers| && i != id ==> r.handlers[i] == s.handlers[i]
    ensures s.handlers[id].streamClosed ==> r == s
    ensures !s.handlers[id].streamClosed ==>
              |r.queue| == |s.queue| + 1 && r.queue[..|s.queue|] == s.queue
              && r.queue[|s.queue|] == Some(HandleChunk(scaled, s.handlers[id].buffer, chunk).item)
              && !r.handlers[id].streamClosed && |r.handlers[id].buffer| < 4
              && r.handlers[id].buffer == HandleChunk(scaled, s.handlers[id].buffer, chunk).residual
  {
    var h := s.handlers[id];
    if h.streamClosed then s
    else
      var step := HandleChunk(scaled, h.buffer, chunk);
      s.(handlers := s.handlers[id := h.(buffer := step.residual)],
         queue := Put(s.queue, Some(step.item)))
  }

  /** Handler `id`'s task receiving `chunks`, one after another. */
  function OnAudioChunks(scaled: bytes -> int, s: PlayhtTts, id: nat, chunks: seq<bytes>): (r: PlayhtTts)
    requires Valid(s) && id < |s.handlers|
    ensures Valid(r) && |r.handlers| == |s.handlers|
    decreases |chunks|
  {
    if |chunks| == 0 then s
    else OnAudioChunks(scaled, OnAudioChunk(scaled, s, id, chunks[0]), id, chunks[1..])
  }

  /** The session's task of an open handler is the handler loop: feeding it
      a stream of chunks appends to the shared queue exactly the items of
      `HandleAudioData` started from the handler's carried bytes, and leaves
      the handler carrying that loop's final residual; the session's other
      fields do not change. */
  lemma {:induction false} OpenHandlerRunsHandleAudioData(scaled: bytes -> int, s: PlayhtTts, id: nat,
                                                          chunks: seq<bytes>)
    requires Valid(s) && id < |s.handlers| && !s.handlers[id].streamClosed
    ensures var r := OnAudioChunks(scaled, s, id, chunks);
            var loop := HandleAudioData(scaled, s.handlers[id].buffer, chunks);
            && r.queue == s.queue + Items(loop.items)
            && r.handlers == s.handlers[id := Handler(loop.residual, false)]
            && r.client == s.client && r.handler == s.handler
            && r.created == s.created && r.sent == s.sent
    decreases |chunks|
  {
    var h := s.handlers[id];
    if |chunks| == 0 {
      assert s.handlers[id := Handler(h.buffer, false)] == s.handlers;
      assert Items<bytes>([]) == [];
    } else {
      var s1 := OnAudioChunk(scaled, s, id, chunks[0]);
      var step := HandleChunk(scaled, h.buffer, chunks[0]);
      var rest := HandleAudioData(scaled, step.residual, chunks[1..]);
      var loop := HandleAudioData(scaled, h.buffer, chunks);
      var r := OnAudioChunks(scaled, s1, id, chunks[1..]);
      assert OnAudioChunks(scaled, s, id, chunks) == r;
      assert s1.handlers[id] == Handler(step.residual, false);
      assert s1.queue == s.queue + [Some(step.item)];
      OpenHandlerRunsHandleAudioData(scaled, s1, id, chunks[1..]);
      assert loop.items == [step.item] + rest.items && loop.residual == rest.residual;
      PutThenItems(s.queue, step.item, rest.items);
      assert s1.handlers[id := Handler(rest.residual, false)]
          == s.handlers[id := Handler(rest.residual, false)];
    }
  }

  /** Putting one item and then a run of items is putting the whole run. */
  lemma PutThenItems<T>(q: Queue<T>, x: T, xs: seq<T>)
    ensures Put(q, Some(x)) + Items(xs) == q + Items([x] + xs)
  {
    assert Items([x] + xs) == [Some(x)] + Items(xs);
  }

  /** After any failed request the client is gone, and the next request that
      succeeds builds a new client, never one used before, with a newly
      started handler. */
  lemma FailedRequestRebuildsClient(s: PlayhtTts, t1: string, t2: string, eos: bool,
                                    create: CreateFault, send: Step)
    requires Valid(s)
    requires (s.client.None? && create != CreateOk) || send.Raises?
    requires s.client.Some? ==> s.client.value < s.created
    ensures var failed := TextToSpeechStream(s, t1, eos, create, send);
            var next := TextToSpeechStream(failed, t2, eos, CreateOk, Succeeds);
            && failed.client == None
            && next.client == Some(failed.created)
            && failed.created >= s.created
            && next.handler == Some(|failed.handlers|)
            && next.handlers[|failed.handlers|] == StartedHandler
  {
  }

  /** A request that fails after the client exists leaves the old handler's
      task running: once the next request has started a new handler, a chunk
      arriving on the old handler's stream still puts an item, decoded with
      the old handler's carried bytes, on the queue the new handler feeds. */
  lemma ReplacedHandlerKeepsFeeding(scaled: bytes -> int, s: PlayhtTts, t1: string, t2: string,
                                    eos: bool, e: PyError, chunk: bytes)
    requires Valid(s) && s.client.Some? && !s.handlers[s.handler.value].streamClosed
    ensures var failed := TextToSpeechStream(s, t1, eos, CreateOk, Raises(e));
            var next := TextToSpeechStream(failed, t2, eos, CreateOk, Succeeds);
            var prev := s.handler.value;
            && next.handler == Some(|s.handlers|) && prev < |next.handlers|
            && !next.handlers[prev].streamClosed
            && OnAudioChunk(scaled, next, prev, chunk).queue
               == Put(next.queue, Some(HandleChunk(scaled, s.handlers[prev].buffer, chunk).item))
  {
  }

  /** Two requests on a new session, both succeeding: exactly one client is
      created, both texts are written to it in order, and exactly one
      handler is started, from an empty buffer. */
  lemma TwoRequestsOneClient(t1: string, t2: string)
    ensures var s1 := TextToSpeechStream(NewPlayhtTts, t1, false, CreateOk, Succeeds);
            var s2 := TextToSpeechStream(s1, t2, true, CreateOk, Succeeds);
            && s2.created == 1 && s2.client == Some(0)
            && s2.sent == [t1, t2]
            && s2.handler == Some(0) && s2.handlers == [StartedHandler]
  {
  }

  /** A cancelled session is never reused: the next request constructs a
      new client, and the cancelled handler's task delivers nothing more. */
  lemma CancelThenRequestReconnects(scaled: bytes -> int, s: PlayhtTts, text: string, eos: bool,
                                    chunk: bytes)
    requires Valid(s) && s.client.Some?
    ensures var c := Cancel(s, CancelOk).state;
            var next := TextToSpeechStream(c, text, eos, CreateOk, Succeeds);
            && c.client == None && c.handler == None
            && s.handler.value < |c.handlers|
            && OnAudioChunk(scaled, c, s.handler.value, chunk) == c
            && next.client == Some(s.created) && next.created == s.created + 1
            && Cancel(c, CancelOk) == Outcome(c, None)
  {
  }
}

=== FILE: pytext.dfy ===
/** The Python string operations the log scanner and the configuration rely
    on: substring search (`in`, `str.split`), `str.strip()` and `int(str)`,
    each stated by what it returns rather than how. */
module PyText {
  import opened Common

  /** `c.isspace()`: the characters Python counts as whitespace. */
  predicate IsSpace(c: char)
  {
    || c == ' '
    || ('\t' <= c <= '\r')
    || ('\U{1C}' <= c <= '\U{1F}')
    || c == '\U{85}' || c == '\U{A0}' || c == '\U{1680}'
    || ('\U{2000}' <= c <= '\U{200A}')
    || c == '\U{2028}' || c == '\U{2029}' || c == '\U{202F}' || c == '\U{205F}' || c == '\U{3000}'
  }

  // ---------------------------------------------------------------------
  // Substring search
  // ---------------------------------------------------------------------

  /** `pat` occurs in `s` starting at index `i`. */
  predicate OccursAt(s: string, pat: string, i: nat)
  {
    i + |pat| <= |s| && s[i .. i + |pat|] == pat
  }

  /** The first index at or after `from` where `pat` occurs. */
  function FindFrom(s: string, pat: string, from: nat): (r: Option<nat>)
    requires from <= |s|
    ensures r.Some? ==> from <= r.value && OccursAt(s, pat, r.value)
    ensures r.Some? ==> forall j: nat :: from <= j < r.value ==> !OccursAt(s, pat, j)
    ensures r.None? ==> forall j: nat :: from <= j ==> !OccursAt(s, pat, j)
    decreases |s| - from
  {
    if OccursAt(s, pat, from) then Some(from)
    else if from == |s| then None
    else FindFrom(s, pat, from + 1)
  }

  /** `s.find(pat)`, with `None` for -1. */
  function Find(s: string, pat: string): (r: Option<nat>)
    ensures r.Some? ==> OccursAt(s, pat, r.value)
    ensures r.Some? ==> forall j: nat :: j < r.value ==> !OccursAt(s, pat, j)
    ensures r.None? ==> forall j: nat :: !OccursAt(s, pat, j)
  {
    FindFrom(s, pat, 0)
  }

  /** `pat in s`. */
  predicate Contains(s: string, pat: string)
  {
    Find(s, pat).Some?
  }

  /** `s.split(sep)[1]` when `len(s.split(sep)) > 1`, else `None`: the text
      between the first occurrence of `sep` and the next one (or the end); no
      occurrence of `sep` in the rest of the text starts inside the part, so
      overlapping occurrences are cut at the first start.
      Python rejects an empty separator. */
  function SplitPart1(s: string, sep: string): (r: Option<string>)
    requires |sep| > 0
    ensures r.Some? <==> Contains(s, sep)
    ensures r.Some? ==>
              var i := Find(s, sep).value;
              var rest := s[i + |sep|..];
              && r.value <= rest
              && !Contains(r.value, sep)
              && (r.value == rest || OccursAt(rest, sep, |r.value|))
              && forall k: nat :: k < |r.value| ==> !OccursAt(rest, sep, k)
  {
    match Find(s, sep)
    case None => None
    case Some(i) =>
      var rest := s[i + |sep|..];
      match Find(rest, sep)
      case None => Some(rest)
      case Some(j) =>
        var part := rest[..j];
        assert forall k: nat :: OccursAt(part, sep, k) ==> OccursAt(rest, sep, k) by {
          forall k: nat | OccursAt(part, sep, k) ensures OccursAt(rest, sep, k) {
            assert rest[k .. k + |sep|] == part[k .. k + |sep|];
          }
        }
        Some(part)
  }

  /** Overlapping separators: `"aaaaa".split("aa")[1]` is the empty text
      between the first two starts, not `"a"`. */
  lemma SplitOverlapExample()
    ensures SplitPart1("aaaaa", "aa") == Some("")
  {
    assert OccursAt("aaaaa", "aa", 0);
    assert "aaaaa"[2..] == "aaa";
    assert OccursAt("aaa", "aa", 0);
  }

  // ---------------------------------------------------------------------
  // `str.strip()`
  // ---------------------------------------------------------------------

  function LStrip(s: string): (r: string)
    ensures |r| <= |s| && r == s[|s| - |r|..]
    ensures forall i :: 0 <= i < |s| - |r| ==> IsSpace(s[i])
    ensures |r| > 0 ==> !IsSpace(r[0])
    decreases |s|
  {
    if |s| > 0 && IsSpace(s[0]) then LStrip(s[1..]) else s
  }

  function RStrip(s: string): (r: string)
    ensures |r| <= |s| && r == s[..|r|]
    ensures forall i :: |r| <= i < |s| ==> IsSpace(s[i])
    ensures |r| > 0 ==> !IsSpace(r[|r| - 1])
    decreases |s|
  {
    if |s| > 0 && IsSpace(s[|s| - 1]) then RStrip(s[..|s| - 1]) else s
  }

  /** `s.strip()`: what is left after removing whitespace from the start
      (`LStrip`) and then from the end (`RStrip`); it neither starts nor ends
      with whitespace. */
  function Strip(s: string): (r: string)
    ensures |r| <= |s|
    ensures |r| > 0 ==> !IsSpace(r[0]) && !IsSpace(r[|r| - 1])
    ensures exists i, j :: 0 <= i <= j <= |s| && r == s[i..j]
              && (forall k :: 0 <= k < i ==> IsSpace(s[k]))
              && (forall k :: j <= k < |s| ==> IsSpace(s[k]))
  {
    var l := LStrip(s);
    var r := RStrip(l);
    assert |r| > 0 ==> r[0] == l[0];
    StripIsWindow(s, l, r);
    r
  }

  /** Cutting a whitespace prefix from `s` and then a whitespace suffix from
      what is left keeps a contiguous window of `s` with only whitespace
      outside it. */
  lemma StripIsWindow(s: string, l: string, r: string)
    requires |l| <= |s| && l == s[|s| - |l|..]
    requires forall k :: 0 <= k < |s| - |l| ==> IsSpace(s[k])
    requires |r| <= |l| && r == l[..|r|]
    requires forall k :: |r| <= k < |l| ==> IsSpace(l[k])
    ensures exists i, j :: 0 <= i <= j <= |s| && r == s[i..j]
              && (forall k :: 0 <= k < i ==> IsSpace(s[k]))
              && (forall k :: j <= k < |s| ==> IsSpace(s[k]))
  {
    var i := |s| - |l|;
    var j := i + |r|;
    assert r == s[i..j];
    forall k | j <= k < |s| ensures IsSpace(s[k]) {
      assert s[k] == l[k - i];
    }
    assert 0 <= i <= j <= |s| && r == s[i..j]
      && (forall k :: 0 <= k < i ==> IsSpace(s[k]))
      && (forall k :: j <= k < |s| ==> IsSpace(s[k]));
  }

  /** A string that neither starts nor ends with whitespace is its own strip. */
  lemma StripTrimmed(s: string)
    requires |s| > 0 && !IsSpace(s[0]) && !IsSpace(s[|s| - 1])
    ensures Strip(s) == s
  {
    assert LStrip(s) == s;
    assert RStrip(s) == s;
  }

  // ---------------------------------------------------------------------
  // `int(str)` and `str(int)`
  // ---------------------------------------------------------------------

  predicate IsDigit(c: char)
  {
    '0' <= c <= '9'
  }

  function DigitValue(c: char): (d: nat)
    requires IsDigit(c)
    ensures d < 10
  {
    (c as int) - ('0' as int)
  }

  function DigitChar(d: nat): (c: char)
    requires d < 10
    ensures IsDigit(c) && DigitValue(c) == d
  {
    (('0' as int) + d) as char
  }

  /** The value of a string of decimal digits, most significant first. */
  function DigitsValue(ds: string): nat
    requires forall i :: 0 <= i < |ds| ==> IsDigit(ds[i])
    decreases |ds|
  {
    if |ds| == 0 then 0 else 10 * DigitsValue(ds[..|ds| - 1]) + DigitValue(ds[|ds| - 1])
  }

  /** Digits, with single underscores allowed between two digits, as
      Python's integer literal grammar has it. */
  predicate DigitGroups(s: string)
  {
    && |s| > 0 && IsDigit(s[0]) && IsDigit(s[|s| - 1])
    && (forall i :: 0 <= i < |s| ==> IsDigit(s[i]) || s[i] == '_')
    && !Contains(s, "__")
  }

  /** The string with its underscores removed. */
  function DropUnderscores(s: string): (r: string)
    requires forall i :: 0 <= i < |s| ==> IsDigit(s[i]) || s[i] == '_'
    ensures forall i :: 0 <= i < |r| ==> IsDigit(r[i])
    decreases |s|
  {
    if |s| == 0 then []
    else (if s[0] == '_' then [] else [s[0]]) + DropUnderscores(s[1..])
  }

  /** The value of unsigned digit groups, `None` if `body` is not one. */
  function ParseMagnitude(body: string): (r: Option<nat>)
    ensures r.Some? <==> DigitGroups(body)
  {
    if DigitGroups(body) then Some(DigitsValue(DropUnderscores(body))) else None
  }

  /** A stripped number: one optional sign, then digit groups. */
  function ParseSigned(t: string): Option<int>
  {
    if |t| == 0 then None
    else
      var negative := t[0] == '-';
      var body := if t[0] == '-' || t[0] == '+' then t[1..] else t;
      match ParseMagnitude(body)
      case None => None
      case Some(m) => Some(if negative then -(m as int) else m as int)
  }

  /** `int(s)` for a decimal string: surrounding whitespace is ignored, then
      one optional sign and digit groups; anything else is the `ValueError`
      case, written `None`. */
  function ParseInt(s: string): Option<int>
  {
    ParseSigned(Strip(s))
  }

  /** `str(n)` for a natural number: its shortest decimal digits. */
  function NatToString(n: nat): (s: string)
    ensures |s| > 0 && IsDigit(s[0]) && IsDigit(s[|s| - 1])
    ensures forall i :: 0 <= i < |s| ==> IsDigit(s[i])
    decreases n
  {
    if n < 10 then [DigitChar(n)] else NatToString(n / 10) + [DigitChar(n % 10)]
  }

  /** `str(n)`. */
  function IntToString(n: int): string
  {
    if n < 0 then "-" + NatToString(-n) else NatToString(n)
  }

  lemma {:induction false} NatToStringValue(n: nat)
    ensures DigitsValue(NatToString(n)) == n
    decreases n
  {
    var s := NatToString(n);
    if n >= 10 {
      NatToStringValue(n / 10);
      assert s[..|s| - 1] == NatToString(n / 10);
    }
  }

  lemma {:induction false} DropUnderscoresOfDigits(s: string)
    requires forall i :: 0 <= i < |s| ==> IsDigit(s[i])
    ensures DropUnderscores(s) == s
    decreases |s|
  {
    if |s| > 0 {
      DropUnderscoresOfDigits(s[1..]);
    }
  }

  /** A non-empty plain digit string is a well-formed digit group. */
  lemma DigitsAreGroups(digits: string)
    requires |digits| > 0 && forall i :: 0 <= i < |digits| ==> IsDigit(digits[i])
    ensures DigitGroups(digits)
  {
    forall j: nat | j + 2 <= |digits| ensures !OccursAt(digits, "__", j) {
      assert digits[j .. j + 2][0] == digits[j];
    }
  }

  /** A plain digit string is read as its value. */
  lemma {:induction false} MagnitudeOfDigits(digits: string)
    requires |digits| > 0 && forall i :: 0 <= i < |digits| ==> IsDigit(digits[i])
    ensures ParseMagnitude(digits) == Some(DigitsValue(digits))
  {
    DropUnderscoresOfDigits(digits);
    DigitsAreGroups(digits);
  }

  /** An unsigned stripped number is read as its magnitude. */
  lemma SignedWithoutSign(t: string, m: nat)
    requires |t| > 0 && t[0] != '-' && t[0] != '+' && ParseMagnitude(t) == Some(m)
    ensures ParseSigned(t) == Some(m as int)
  {
  }

  /** A stripped number with a minus sign is read as its negated
      magnitude. */
  lemma SignedWithMinus(t: string, m: nat)
    requires |t| > 0 && t[0] == '-' && ParseMagnitude(t[1..]) == Some(m)
    ensures ParseSigned(t) == Some(-(m as int))
  {
  }

  /** A minus sign followed by a number ending in a digit parses to the
      negated magnitude. */
  lemma ParseMinus(s: string, digits: string, m: nat)
    requires s == "-" + digits && |digits| > 0 && IsDigit(digits[|digits| - 1])
    requires ParseMagnitude(digits) == Some(m)
    ensures ParseInt(s) == Some(-(m as int))
  {
    assert s[|s| - 1] == digits[|digits| - 1];
    StripTrimmed(s);
    assert s[1..] == digits;
    SignedWithMinus(s, m);
  }

  /** A plain digit string parses to its value. */
  lemma {:induction false} ParsePlainDigits(digits: string)
    requires |digits| > 0 && forall i :: 0 <= i < |digits| ==> IsDigit(digits[i])
    ensures ParseInt(digits) == Some(DigitsValue(digits) as int)
  {
    var v := DigitsValue(digits);
    assert IsDigit(digits[0]) && IsDigit(digits[|digits| - 1]);
    StripTrimmed(digits);
    assert ParseInt(digits) == ParseSigned(digits);
    MagnitudeOfDigits(digits);
    SignedWithoutSign(digits, v);
  }

  /** `int(str(n)) == n`: the decimal rendering of every integer parses back
      to it. */
  lemma {:induction false} IntRoundTrip(n: int)
    ensures ParseInt(IntToString(n)) == Some(n)
  {
    var m: nat := if n < 0 then -n else n;
    NatToStringValue(m);
    if n < 0 {
      var digits := NatToString(m);
      MagnitudeOfDigits(digits);
      ParseMinus(IntToString(n), digits, m);
    } else {
      ParsePlainDigits(NatToString(m));
    }
  }
}

=== FILE: tencent_asr.dfy ===
/** The Tencent ASR client (`tencent_asr.py`): turning vendor recognition
    payloads into `AsrResult`s, routing listener events onto the result
    queue, and the recogniser lifecycle (`TencetASR`). */
module TencentAsr {
  import opened Common
  import opened HandoffQueue
  import opened AsrResults

  // ---------------------------------------------------------------------
  // Vendor payloads and `get_asr_result_from_response`
  // ---------------------------------------------------------------------

  /** One entry of `response["result"]["word_list"]`. */
  datatype RawWord = RawWord(startTime: int, endTime: int, word: string, stableFlag: int)

  /** `response["result"]`. */
  datatype RawResult = RawResult(
    startTime: int,
    endTime: int,
    sliceType: int,
    wordList: seq<RawWord>,
    voiceTextStr: string)

  /** A vendor callback payload. */
  datatype Response = Response(voiceId: string, result: RawResult)

  /** The slice type that marks the end of a sentence. */
  const FinalSliceType: int := 2
  /** The per-word flag value that marks a stable word. */
  const StableFlag: int := 1
  /** Every result is labelled with this language. */
  const Language: string := "zh-CN"

  /** The words of a payload, in order, with times corrected by `baseTime`. */
  function ToWords(wordList: seq<RawWord>, baseTime: int): (ws: seq<Word>)
    ensures |ws| == |wordList|
    ensures forall i :: 0 <= i < |wordList| ==>
              && ws[i].textTime == baseTime + wordList[i].startTime
              && ws[i].durationMs == wordList[i].endTime - wordList[i].startTime
              && ws[i].text == wordList[i].word
              && (ws[i].isFinal <==> wordList[i].stableFlag == StableFlag)
    decreases |wordList|
  {
    if |wordList| == 0 then []
    else
      var w := wordList[0];
      [Word(baseTime + w.startTime, w.endTime - w.startTime, w.word, w.stableFlag == StableFlag)]
        + ToWords(wordList[1..], baseTime)
  }

  /** `get_asr_result_from_response`: the sentence start is shifted by
      `baseTime`, its duration is end minus start (no sign check), the result
      is final exactly when the slice type is 2, and every word is converted
      in order with its own stability, independent of the sentence's
      finality. */
  function GetAsrResultFromResponse(response: Response, baseTime: int): (r: AsrResult)
    ensures r.textTime == baseTime + response.result.startTime
    ensures r.durationMs == response.result.endTime - response.result.startTime
    ensures r.isFinal <==> response.result.sliceType == FinalSliceType
    ensures r.sliceType == response.result.sliceType
    ensures r.voiceTextStr == response.result.voiceTextStr
    ensures r.language == Language
    ensures r.words == Some(ToWords(response.result.wordList, baseTime))
  {
    var result := response.result;
    AsrResult(
      textTime := baseTime + result.startTime,
      language := Language,
      sliceType := result.sliceType,
      durationMs := result.endTime - result.startTime,
      words := Some(ToWords(result.wordList, baseTime)),
      voiceTextStr := result.voiceTextStr,
      isFinal := result.sliceType == FinalSliceType)
  }

  /** Words with their start times moved by `delta`. */
  function ShiftWordTimes(ws: seq<Word>, delta: int): seq<Word>
  {
    seq(|ws|, i requires 0 <= i < |ws| => ws[i].(textTime := ws[i].textTime + delta))
  }

  /** A result with every time field moved by `delta`. */
  function ShiftTimes(r: AsrResult, delta: int): AsrResult
  {
    r.(textTime := r.textTime + delta,
       words := match r.words
         case None => None
         case Some(ws) => Some(ShiftWordTimes(ws, delta)))
  }

  lemma WordsTranslate(wordList: seq<RawWord>, base: int, delta: int)
    ensures ToWords(wordList, base + delta) == ShiftWordTimes(ToWords(wordList, base), delta)
  {
    var ws := ToWords(wordList, base);
    var shifted := ToWords(wordList, base + delta);
    forall i | 0 <= i < |ws| ensures shifted[i] == ws[i].(textTime := ws[i].textTime + delta) {
    }
  }

  /** Base-time correction is a pure translation: changing the base moves
      the sentence and every word by the same amount and leaves durations,
      texts and finality alone. */
  lemma BaseTimeIsTranslation(response: Response, base: int, delta: int)
    ensures GetAsrResultFromResponse(response, base + delta)
            == ShiftTimes(GetAsrResultFromResponse(response, base), delta)
  {
    WordsTranslate(response.result.wordList, base, delta);
  }

  /** A result computed from a vendor payload always has a word list, so it
      is never the default record. */
  lemma VendorResultIsNotDefault(response: Response, base: int)
    ensures GetAsrResultFromResponse(response, base).words.Some?
    ensures GetAsrResultFromResponse(response, base) != DefaultAsrResult
  {
  }

  /** With a first-frame timestamp of 1000, a word that starts 250 ms into
      the payload is reported at 1250. */
  lemma TimestampCorrectionExample(w: RawWord, response: Response)
    requires w.startTime == 250
    requires response.result.wordList == [w]
    ensures GetAsrResultFromResponse(response, 1000).words.value[0].textTime == 1250
  {
  }

  /** Word stability and sentence finality are independent: an interim
      result (slice type 1) can carry a stable word, and a final one (slice
      type 2) an unstable word. */
  lemma StabilityIndependentOfFinality()
    ensures var interim := Response("v", RawResult(0, 10, 1, [RawWord(0, 5, "a", 1)], "a"));
            var r := GetAsrResultFromResponse(interim, 0);
            !r.isFinal && r.words.value[0].isFinal
    ensures var final := Response("v", RawResult(0, 10, 2, [RawWord(0, 5, "a", 0)], "a"));
            var r := GetAsrResultFromResponse(final, 0);
            r.isFinal && !r.words.value[0].isFinal
  {
  }

  // ---------------------------------------------------------------------
  // Listener (`AsyncIteratorCallback`) and recogniser (`TencetASR`)
  // ---------------------------------------------------------------------

  /** The vendor listener events. */
  datatype Event =
    | RecognitionStart(response: Response)
    | SentenceBegin(response: Response)
    | ResultChange(response: Response)
    | SentenceEnd(response: Response)
    | RecognitionComplete(response: Response)
    | Fail(response: Response)

  /** The events that carry a recognition result onto the queue. */
  predicate CarriesResult(e: Event)
  {
    e.SentenceBegin? || e.ResultChange? || e.SentenceEnd?
  }

  /** `AsyncIteratorCallback`: the time base and whether a failure handler
      was supplied. Nothing ever assigns `first_frame_timestamp` after
      construction (its setter is commented out), so it stays 0. */
  datatype Listener = Listener(firstFrameTimestamp: int, hasFailureHandler: bool)

  /** The vendor `SpeechRecognizer`: whether it was started. The frames
      written to it are the output of `SendAudioFrame`. */
  datatype Recognizer = Recognizer(started: bool)

  /** A `TencetASR` instance: its recogniser, its listener, and the result
      queue the listener feeds. */
  datatype TencetAsr = TencetAsr(
    recognizer: Option<Recognizer>,
    listener: Option<Listener>,
    queue: Queue<AsrResult>,
    senderStarted: bool)

  /** `TencetASR.__init__`. */
  const NewTencetAsr: TencetAsr := TencetAsr(None, None, [], false)

  /** `create_asr_client`: installs a listener whose failure handler is
      `stop`, constructs and configures the recogniser and starts the
      frame-sending task. `vendor` stands for the `SpeechRecognizer`
      constructor and its setters only: if one of them raises, the new
      listener is already installed but the recogniser is not, and the
      exception propagates. The `credential.Credential` constructor, which
      runs before the listener is installed, is taken not to raise. */
  function CreateAsrClient(s: TencetAsr, vendor: Step): (o: (TencetAsr, Option<PyError>))
    ensures o.0.listener == Some(Listener(0, true)) && o.0.queue == s.queue
    ensures vendor == Succeeds ==>
              o.1 == None && o.0.recognizer == Some(Recognizer(false)) && o.0.senderStarted
    ensures vendor.Raises? ==>
              o.1 == Some(vendor.error) && o.0.recognizer == s.recognizer
              && o.0.senderStarted == s.senderStarted
  {
    var withListener := s.(listener := Some(Listener(0, true)));
    match vendor
    case Raises(e) => (withListener, Some(e))
    case Succeeds => (withListener.(recognizer := Some(Recognizer(false)), senderStarted := true), None)
  }

  /** `start`: starts the recogniser if there is one (the vendor call may
      raise, and the exception propagates); otherwise only warns. */
  function Start(s: TencetAsr, vendor: Step): (o: (TencetAsr, Option<PyError>))
    ensures s.recognizer.None? ==> o == (s, None)
    ensures s.recognizer.Some? && vendor == Succeeds ==>
              o.1 == None && o.0 == s.(recognizer := Some(s.recognizer.value.(started := true)))
    ensures s.recognizer.Some? && vendor.Raises? ==> o == (s, Some(vendor.error))
  {
    match s.recognizer
    case None => (s, None)
    case Some(rec) =>
      match vendor
      case Raises(e) => (s, Some(e))
      case Succeeds => (s.(recognizer := Some(rec.(started := true))), None)
  }

  /** What `stop` logged. */
  datatype StopReport = AlreadyStopped | Stopped(caught: Option<PyError>)

  /** `stop`: stops the recogniser if there is one; an exception from the
      vendor stop is caught, and the `finally` clause forgets the recogniser
      either way. */
  function Stop(s: TencetAsr, vendor: Step): (o: (TencetAsr, StopReport))
    ensures o.0.recognizer == None
    ensures o.0.listener == s.listener && o.0.queue == s.queue && o.0.senderStarted == s.senderStarted
    ensures s.recognizer.None? <==> o.1 == AlreadyStopped
    ensures s.recognizer.Some? ==> o.1 == Stopped(if vendor.Raises? then Some(vendor.error) else None)
  {
    match s.recognizer
    case None => (s, AlreadyStopped)
    case Some(_) =>
      (s.(recognizer := None), Stopped(if vendor.Raises? then Some(vendor.error) else None))
  }

  /** Stopping twice is stopping once: the second call finds no recogniser
      and changes nothing. */
  lemma StopIsIdempotent(s: TencetAsr, v1: Step, v2: Step)
    ensures var once := Stop(s, v1).0;
            Stop(once, v2) == (once, AlreadyStopped)
  {
  }

  /** One listener callback. Sentence-begin, result-change and sentence-end
      each put exactly one result, computed against the listener's time base,
      on the queue; recognition-start and recognition-complete only log; a
      failure puts nothing and calls the failure handler, which is `stop`. */
  function OnEvent(s: TencetAsr, e: Event, vendorStop: Step): (r: TencetAsr)
    requires s.listener.Some?
    ensures r.listener == s.listener && r.senderStarted == s.senderStarted
    ensures CarriesResult(e) ==>
              r.recognizer == s.recognizer
              && r.queue == s.queue + [Some(GetAsrResultFromResponse(e.response, s.listener.value.firstFrameTimestamp))]
    ensures !CarriesResult(e) ==> r.queue == s.queue
    ensures e.RecognitionStart? || e.RecognitionComplete? ==> r == s
    ensures e.Fail? ==>
              r.recognizer == (if s.listener.value.hasFailureHandler then None else s.recognizer)
  {
    var base := s.listener.value.firstFrameTimestamp;
    match e
    case RecognitionStart(_) => s
    case SentenceBegin(resp) => s.(queue := Put(s.queue, Some(GetAsrResultFromResponse(resp, base))))
    case ResultChange(resp) => s.(queue := Put(s.queue, Some(GetAsrResultFromResponse(resp, base))))
    case SentenceEnd(resp) => s.(queue := Put(s.queue, Some(GetAsrResultFromResponse(resp, base))))
    case RecognitionComplete(_) => s
    case Fail(_) => if s.listener.value.hasFailureHandler then Stop(s, vendorStop).0 else s
  }

  /** A run of listener callbacks, the vendor stop always behaving as
      `vendorStop`. */
  function OnEvents(s: TencetAsr, events: seq<Event>, vendorStop: Step): (r: TencetAsr)
    requires s.listener.Some?
    ensures r.listener == s.listener
    decreases |events|
  {
    if |events| == 0 then s
    else OnEvents(OnEvent(s, events[0], vendorStop), events[1..], vendorStop)
  }

  /** The results a run of events should produce, independently of any
      listener state: one per result-carrying event, in order, against
      time base `base`. */
  function ExpectedResults(events: seq<Event>, base: int): seq<AsrResult>
    decreases |events|
  {
    if |events| == 0 then []
    else
      (if CarriesResult(events[0]) then [GetAsrResultFromResponse(events[0].response, base)] else [])
        + ExpectedResults(events[1..], base)
  }

  /** Event routing: a run of callbacks appends exactly the results of its
      sentence-begin, result-change and sentence-end events, in arrival
      order, computed against time base 0, since the listener's time base is
      never updated. */
  lemma {:induction false} RoutingAppendsExpected(s: TencetAsr, events: seq<Event>, vendorStop: Step)
    requires s.listener.Some? && s.listener.value.firstFrameTimestamp == 0
    ensures OnEvents(s, events, vendorStop).queue == s.queue + Items(ExpectedResults(events, 0))
    decreases |events|
  {
    if |events| > 0 {
      var next := OnEvent(s, events[0], vendorStop);
      RoutingAppendsExpected(next, events[1..], vendorStop);
      var head := if CarriesResult(events[0]) then [GetAsrResultFromResponse(events[0].response, 0)] else [];
      assert Items(head + ExpectedResults(events[1..], 0)) == Items(head) + Items(ExpectedResults(events[1..], 0));
    }
  }

  // ---------------------------------------------------------------------
  // `send_audio_frame`
  // ---------------------------------------------------------------------

  /** Whether a queued frame is falsy in Python: `None` or empty bytes. */
  predicate Falsy(frame: Option<bytes>)
  {
    frame.None? || |frame.value| == 0
  }

  /** Why the frame-sending loop stopped: it met a falsy frame, found no
      recogniser, a vendor write raised, or it is still waiting on an empty
      queue. */
  datatype SendEnd = EmptyFrame | NoRecognizer | WriteRaised(error: PyError) | Waiting

  /** `send_audio_frame`: takes frames from the audio queue in order and
      writes each to the recogniser; returns at the first falsy frame or if
      there is no recogniser. The write at queue position `failAt`, if any,
      raises, which ends the coroutine (only `QueueEmpty`, which `get` never
      raises, is caught). `sent` are the frames written. The recogniser is
      the one `s` holds throughout: the code re-reads `self.recognizer` for
      every frame, and a `stop` running between two frames is not
      modelled. */
  method SendAudioFrame(s: TencetAsr, frames: Queue<bytes>, failAt: Option<nat>, error: PyError)
    returns (sent: seq<bytes>, end: SendEnd)
    ensures |sent| <= |frames|
    ensures forall i :: 0 <= i < |sent| ==> frames[i] == Some(sent[i]) && !Falsy(frames[i])
    ensures s.recognizer.None? ==> sent == []
    ensures end == EmptyFrame <==> |sent| < |frames| && Falsy(frames[|sent|])
    ensures end == NoRecognizer <==> s.recognizer.None? && |frames| > 0 && !Falsy(frames[0])
    ensures end == Waiting <==> (s.recognizer.Some? || |frames| == 0) && |sent| == |frames|
                                 && (failAt.None? || failAt.value >= |frames|)
    ensures end.WriteRaised? <==> s.recognizer.Some? && failAt == Some(|sent|) && |sent| < |frames|
                                   && !Falsy(frames[|sent|])
    ensures end.WriteRaised? ==> end.error == error
  {
    sent := [];
    var i := 0;
    while i < |frames|
      invariant 0 <= i <= |frames| && |sent| == i
      invariant forall j :: 0 <= j < i ==> frames[j] == Some(sent[j]) && !Falsy(frames[j])
      invariant s.recognizer.None? ==> i == 0
      invariant forall j :: 0 <= j < i ==> failAt != Some(j)
    {
      var frame := frames[i];
      if Falsy(frame) {
        return sent, EmptyFrame;
      }
      if s.recognizer.None? {
        return sent, NoRecognizer;
      }
      if failAt == Some(i) {
        return sent, WriteRaised(error);
      }
      sent := sent + [frame.value];
      i := i + 1;
    }
    return sent, Waiting;
  }
}

=== FILE: tencent_asr_extension.dfy ===
/** The Tencent ASR extension (`tencent_asr_python/extension.py`): the
    credential gate that decides whether a recognition client exists, the
    audio-frame entry point, and the consumer loop that maps each
    `AsrResult` to an outgoing `text_data` record. */
module TencentAsrExtension {
  import opened Common
  import opened HandoffQueue
  import opened AsrResults
  import opened TencentAsr

  datatype AsrConfig = AsrConfig(appId: string, secretId: string, secretKey: string, engineModelType: string)

  /** All three credentials are non-empty. */
  predicate HasCredentials(c: AsrConfig)
  {
    c.appId != "" && c.secretId != "" && c.secretKey != ""
  }

  /** `TencentASRExtension`: its client, the last stream id seen on an audio
      frame, and whether the result consumer task was started. */
  datatype AsrExtension = AsrExtension(client: Option<TencetAsr>, streamId: int, consumerStarted: bool)

  const NewAsrExtension: AsrExtension := AsrExtension(None, 0, false)

  /** `on_start`: without all three credentials it logs and returns with no
      client. Otherwise it installs a new `TencetASR`, creates its vendor
      client, starts it and starts the consumer task; an exception from the
      vendor propagates and leaves the consumer unstarted. */
  function OnStart(e: AsrExtension, config: AsrConfig, create: Step, start: Step): (o: (AsrExtension, Option<PyError>))
    ensures !HasCredentials(config) ==> o == (e, None)
    ensures HasCredentials(config) ==>
              o.0.client.Some? && o.0.client.value.listener == Some(Listener(0, true))
              && o.0.streamId == e.streamId
    ensures o.0.consumerStarted <==>
              e.consumerStarted || (HasCredentials(config) && create == Succeeds && start == Succeeds)
    ensures HasCredentials(config) && create == Succeeds && start == Succeeds ==>
              o.1 == None && o.0.client.value.recognizer == Some(Recognizer(true))
    ensures HasCredentials(config) && (create.Raises? || start.Raises?) ==> o.1.Some?
  {
    if !HasCredentials(config) then (e, None)
    else
      var created := CreateAsrClient(NewTencetAsr, create);
      if created.1.Some? then (e.(client := Some(created.0)), created.1)
      else
        var started := Start(created.0, start);
        if started.1.Some? then (e.(client := Some(started.0)), started.1)
        else (e.(client := Some(started.0), consumerStarted := true), None)
  }

  /** The credential gate: a fresh extension ends up with a client exactly
      when app_id, secret_id and secret_key are all non-empty. */
  lemma ClientIffCredentials(config: AsrConfig, create: Step, start: Step)
    ensures OnStart(NewAsrExtension, config, create, start).0.client.Some? <==> HasCredentials(config)
  {
  }

  /** An incoming audio frame: its payload and its `stream_id` property. */
  datatype AudioFrame = AudioFrame(buf: bytes, streamId: int)

  /** `on_audio_frame`: nothing happens without a client. Otherwise the
      frame's stream id is recorded, and the call `client.send_audio_data`
      raises `AttributeError`, because `TencetASR` defines no such method
      (it is commented out); the frame never reaches the recogniser. */
  function OnAudioFrame(e: AsrExtension, frame: AudioFrame): (o: (AsrExtension, Option<PyError>))
    ensures e.client.None? ==> o == (e, None)
    ensures e.client.Some? ==>
              o.0.streamId == frame.streamId && o.0.client == e.client
              && o.0.consumerStarted == e.consumerStarted
              && o.1 == Some(AttributeError("send_audio_data"))
  {
    if e.client.None? then (e, None)
    else (e.(streamId := frame.streamId), Some(AttributeError("send_audio_data")))
  }

  /** `on_stop`: stops the client's recogniser if there is a client. */
  function OnStop(e: AsrExtension, vendorStop: Step): (r: AsrExtension)
    ensures e.client.None? ==> r == e
    ensures e.client.Some? ==> r.client.Some? && r.client.value.recognizer == None
    ensures r.streamId == e.streamId && r.consumerStarted == e.consumerStarted
  {
    match e.client
    case None => e
    case Some(c) => e.(client := Some(Stop(c, vendorStop).0))
  }

  datatype StatusCode = StatusOk | StatusError

  datatype CmdResult = CmdResult(status: StatusCode, detail: string)

  /** `on_cmd`: every command, whatever it says, is answered OK with detail
      "success". */
  function OnCmd(cmdJson: string): (r: CmdResult)
    ensures r.status == StatusOk && r.detail == "success"
  {
    CmdResult(StatusOk, "success")
  }

  /** The outgoing `text_data` record. */
  datatype TextData = TextData(text: string, streamId: int, endOfSegment: bool, isFinal: bool)

  /** The word texts joined; `create_and_send_data` only logs this. */
  function JoinedWordText(words: seq<Word>): string
    decreases |words|
  {
    if |words| == 0 then [] else words[0].text + JoinedWordText(words[1..])
  }

  /** `create_and_send_data`: it first joins the word texts for its log line;
      iterating `words` raises `TypeError` when it is `None`, which the
      handler catches and logs, so nothing is sent.
      Otherwise the record's text is the result's `voice_text_str` (not the
      joined word texts), its stream id the last one recorded, and both
      `end_of_segment` and `is_final` copy the result's finality. */
  function CreateAndSendData(streamId: int, result: AsrResult): (r: Option<TextData>)
    ensures r.None? <==> result.words.None?
    ensures r.Some? ==>
              r.value.text == result.voiceTextStr && r.value.streamId == streamId
              && r.value.endOfSegment == result.isFinal && r.value.isFinal == result.isFinal
  {
    match result.words
    case None => None
    case Some(_) =>
      Some(TextData(result.voiceTextStr, streamId, result.isFinal, result.isFinal))
  }

  /** The sent text is the vendor's sentence text even when the words spell
      something else. */
  lemma SentTextIsVoiceText()
    ensures var r := AsrResult(0, "zh-CN", 2, 0, Some([Word(0, 0, "ab", true)]), "a b", true);
            && JoinedWordText(r.words.value) == "ab"
            && CreateAndSendData(7, r) == Some(TextData("a b", 7, true, true))
  {
    var ws := [Word(0, 0, "ab", true)];
    assert JoinedWordText(ws) == "ab" + JoinedWordText(ws[1..]);
  }

  /** A default `AsrResult` has no word list, so it is never sent; the same
      result with an empty word list is sent as a non-final empty text. */
  lemma DefaultResultIsNotSent(streamId: int)
    ensures CreateAndSendData(streamId, DefaultAsrResult) == None
    ensures CreateAndSendData(streamId, DefaultAsrResult.(words := Some([])))
            == Some(TextData("", streamId, false, false))
  {
  }

  /** The records sent for a run of results, skipping those that fail. */
  function SendAll(streamId: int, results: seq<AsrResult>): (out: seq<TextData>)
    ensures |out| <= |results|
    ensures (forall i :: 0 <= i < |results| ==> results[i].words.Some?) ==>
              |out| == |results|
              && forall i :: 0 <= i < |results| ==>
                   out[i] == TextData(results[i].voiceTextStr, streamId, results[i].isFinal, results[i].isFinal)
    decreases |results|
  {
    if |results| == 0 then []
    else
      var head := CreateAndSendData(streamId, results[0]);
      var rest := SendAll(streamId, results[1..]);
      if head.None? then rest else [head.value] + rest
  }

  /** `process_asr_result`: takes results from the client's queue in FIFO
      order, stops at the first `None`, and sends each result it takes. */
  function ProcessAsrResult(streamId: int, q: Queue<AsrResult>): (d: Drained<TextData>)
    ensures d.stopped <==> None in q
    ensures |d.delivered| <= |q|
    ensures (forall i :: 0 <= i < |q| && q[i].Some? ==> q[i].value.words.Some?) ==>
              |d.delivered| == |Drain(q).delivered|
              && forall i :: 0 <= i < |d.delivered| ==>
                   q[i].Some? && d.delivered[i].text == q[i].value.voiceTextStr
                   && d.delivered[i].isFinal == q[i].value.isFinal
  {
    var taken := Drain(q);
    Drained(SendAll(streamId, taken.delivered), taken.stopped)
  }

  /** Results computed from vendor payloads always carry a word list. */
  lemma {:induction false} ExpectedResultsHaveWords(events: seq<Event>, base: int)
    ensures forall i :: 0 <= i < |ExpectedResults(events, base)| ==> ExpectedResults(events, base)[i].words.Some?
    decreases |events|
  {
    if |events| > 0 {
      ExpectedResultsHaveWords(events[1..], base);
    }
  }

  /** End to end: after a run of listener callbacks on a freshly created
      client, the consumer sends one record per sentence-begin,
      result-change and sentence-end event, in order, carrying that event's
      sentence text and finality, and then keeps waiting, since nothing puts
      the sentinel on this queue. */
  lemma EventsReachOutput(events: seq<Event>, streamId: int, vendorStop: Step)
    ensures var client := CreateAsrClient(NewTencetAsr, Succeeds).0;
            var d := ProcessAsrResult(streamId, OnEvents(client, events, vendorStop).queue);
            var expected := ExpectedResults(events, 0);
            && !d.stopped
            && |d.delivered| == |expected|
            && forall i :: 0 <= i < |expected| ==>
                 d.delivered[i] == TextData(expected[i].voiceTextStr, streamId, expected[i].isFinal, expected[i].isFinal)
  {
    var client := CreateAsrClient(NewTencetAsr, Succeeds).0;
    var expected := ExpectedResults(events, 0);
    RoutingAppendsExpected(client, events, vendorStop);
    assert client.queue == [];
    assert OnEvents(client, events, vendorStop).queue == Items(expected);
    DrainWithoutSentinel(expected);
    assert ProcessAsrResult(streamId, Items(expected)) == Drained(SendAll(streamId, expected), false);
    ExpectedResultsHaveWords(events, 0);
  }
}

=== FILE: tencent_tts.dfy ===
/** The Tencent TTS client (`tencent_tts_python/tencent_tts.py`): the vendor
    callback that forwards synthesised audio until synthesis ends, and the
    synthesizer-present/absent state machine around it. */
module TencentTts {
  import opened Common
  import opened HandoffQueue
  import opened PyText

  /** `TencentTTSConfig`, with the dataclass defaults in `DefaultConfig`.
      `sampleRate` is a string that is converted with `int()` only when a
      synthesizer is created. */
  datatype TtsConfig = TtsConfig(
    appId: string,
    secretId: string,
    secretKey: string,
    voiceType: int,
    codec: string,
    enableSubtitle: bool,
    sampleRate: string)

  const DefaultConfig: TtsConfig := TtsConfig("", "", "", 0, "pcm", false, "16000")

  // ---------------------------------------------------------------------
  // `AsyncIteratorCallback`
  // ---------------------------------------------------------------------

  /** The callback's one piece of state: whether synthesis has ended. */
  datatype Callback = Callback(closed: bool)

  const NewCallback: Callback := Callback(false)

  /** The vendor's callbacks on the listener. A failure response carries a
      code and a message. */
  datatype SynthesisEvent =
    | SynthesisStart(sessionId: string)
    | SynthesisEnd
    | AudioResult(audio: bytes)
    | SynthesisFail(code: int, message: string)

  /** One callback invocation against the shared audio queue: synthesis end
      closes the callback; audio is put on the queue unless the callback is
      closed, in which case it is dropped with a warning; start and failure
      only log. Nothing ever reopens a closed callback. */
  function OnCallbackEvent(cb: Callback, q: Queue<bytes>, e: SynthesisEvent): (r: (Callback, Queue<bytes>))
    ensures r.0.closed <==> cb.closed || e.SynthesisEnd?
    ensures e.AudioResult? && !cb.closed ==> r.1 == q + [Some(e.audio)]
    ensures !(e.AudioResult? && !cb.closed) ==> r.1 == q
    ensures e.SynthesisFail? || e.SynthesisStart? ==> r == (cb, q)
  {
    match e
    case SynthesisStart(_) => (cb, q)
    case SynthesisEnd => (Callback(true), q)
    case AudioResult(audio) => if cb.closed then (cb, q) else (cb, Put(q, Some(audio)))
    case SynthesisFail(_, _) => (cb, q)
  }

  /** A run of callback invocations on one callback. */
  function OnCallbackEvents(cb: Callback, q: Queue<bytes>, events: seq<SynthesisEvent>): (r: (Callback, Queue<bytes>))
    ensures cb.closed ==> r.0.closed
    ensures |q| <= |r.1| && r.1[..|q|] == q
    decreases |events|
  {
    if |events| == 0 then (cb, q)
    else
      var next := OnCallbackEvent(cb, q, events[0]);
      OnCallbackEvents(next.0, next.1, events[1..])
  }

  /** The events before the first synthesis end (all of them if there is
      none). */
  function BeforeEnd(events: seq<SynthesisEvent>): (r: seq<SynthesisEvent>)
    ensures r <= events
    ensures SynthesisEnd !in r
    ensures SynthesisEnd in events ==> |r| < |events| && events[|r|] == SynthesisEnd
    ensures SynthesisEnd !in events ==> r == events
    decreases |events|
  {
    if |events| == 0 || events[0] == SynthesisEnd then []
    else [events[0]] + BeforeEnd(events[1..])
  }

  /** The audio payloads among `events`, in order. */
  function AudioOf(events: seq<SynthesisEvent>): seq<bytes>
    decreases |events|
  {
    if |events| == 0 then []
    else (if events[0].AudioResult? then [events[0].audio] else []) + AudioOf(events[1..])
  }

  /** A callback that is already closed forwards nothing more. */
  lemma {:induction false} ClosedCallbackForwardsNothing(q: Queue<bytes>, events: seq<SynthesisEvent>)
    ensures OnCallbackEvents(Callback(true), q, events) == (Callback(true), q)
    decreases |events|
  {
    if |events| > 0 {
      ClosedCallbackForwardsNothing(q, events[1..]);
    }
  }

  /** An open callback that is not told synthesis ended stays open and
      puts the event's audio, if any. */
  lemma OpenCallbackStep(q: Queue<bytes>, e: SynthesisEvent)
    requires e != SynthesisEnd
    ensures OnCallbackEvent(NewCallback, q, e) == (NewCallback, q + Items(AudioOf([e])))
  {
    assert [e][1..] == [];
    if e.AudioResult? {
      assert AudioOf([e]) == [e.audio];
      assert Items([e.audio]) == [Some(e.audio)];
    } else {
      assert AudioOf([e]) == [];
      assert q + Items([]) == q;
    }
  }

  /** `AudioOf` distributes over a leading event. */
  lemma AudioOfCons(e: SynthesisEvent, rest: seq<SynthesisEvent>)
    ensures AudioOf([e] + rest) == AudioOf([e]) + AudioOf(rest)
  {
    assert ([e] + rest)[1..] == rest;
    assert AudioOf([e]) == (if e.AudioResult? then [e.audio] else []) + AudioOf([]);
  }

  /** Putting `xs` and then `ys` is putting `xs + ys`. */
  lemma PutItemsTwice<T>(q: Queue<T>, xs: seq<T>, ys: seq<T>)
    ensures q + Items(xs) + Items(ys) == q + Items(xs + ys)
  {
    assert Items(xs) + Items(ys) == Items(xs + ys);
  }

  /** A fresh callback puts exactly the audio that arrives before the first
      synthesis end on the queue, in arrival order, and is closed afterwards
      exactly when a synthesis end arrived; every audio result after the end
      is dropped. */
  lemma {:induction false} ForwardsAudioUntilEnd(q: Queue<bytes>, events: seq<SynthesisEvent>)
    ensures var r := OnCallbackEvents(NewCallback, q, events);
            && r.1 == q + Items(AudioOf(BeforeEnd(events)))
            && (r.0.closed <==> SynthesisEnd in events)
    decreases |events|
  {
    if |events| == 0 {
    } else if events[0] == SynthesisEnd {
      ClosedCallbackForwardsNothing(q, events[1..]);
    } else {
      var e, rest := events[0], events[1..];
      assert events == [e] + rest;
      var q1 := q + Items(AudioOf([e]));
      OpenCallbackStep(q, e);
      assert OnCallbackEvents(NewCallback, q, events) == OnCallbackEvents(NewCallback, q1, rest);
      ForwardsAudioUntilEnd(q1, rest);
      var tail := AudioOf(BeforeEnd(rest));
      assert BeforeEnd(events) == [e] + BeforeEnd(rest);
      AudioOfCons(e, BeforeEnd(rest));
      PutItemsTwice(q, AudioOf([e]), tail);
    }
  }

  // ---------------------------------------------------------------------
  // `TencentTTS`
  // ---------------------------------------------------------------------

  /** A configured `FlowingSpeechSynthesizer`: the index of its callback
      among all callbacks ever created, the settings applied to it, whether
      it was started, and the texts it was asked to synthesise. */
  datatype Synthesizer = Synthesizer(
    callback: nat,
    appId: string,
    voiceType: int,
    codec: string,
    sampleRate: int,
    enableSubtitle: bool,
    started: bool,
    processed: seq<string>)

  /** `TencentTTS`: its configuration, its synthesizer if any, every
      callback created so far (a dropped synthesizer's callback can still be
      invoked by the vendor), and the one audio queue all of them share. */
  datatype TencentTts = TencentTts(
    config: TtsConfig,
    synthesizer: Option<Synthesizer>,
    callbacks: seq<Callback>,
    queue: Queue<bytes>)

  /** Every synthesizer refers to a callback that exists. */
  predicate Valid(s: TencentTts)
  {
    s.synthesizer.Some? ==> s.synthesizer.value.callback < |s.callbacks|
  }

  /** `TencentTTS.__init__`. */
  function NewTencentTts(config: TtsConfig): (s: TencentTts)
    ensures Valid(s) && s.synthesizer.None? && s.queue == [] && s.callbacks == []
  {
    TencentTts(config, None, [], [])
  }

  /** The `ValueError` that `int()` raises on a malformed sample rate. */
  const BadSampleRate: PyError := ValueError("invalid literal for int() with base 10")

  /** `create_synthesizer`: drops the current synthesizer, then builds a new
      one with a fresh open callback on the same queue. `vendor` is the
      outcome of the vendor constructor and the voice-type and codec
      setters; after them, `int(sample_rate)` raises `ValueError` on a
      malformed rate. On any exception the new synthesizer is not installed,
      so the client is left with none, and the exception propagates. */
  function CreateSynthesizer(s: TencentTts, vendor: Step): (o: (TencentTts, Option<PyError>))
    requires Valid(s)
    ensures Valid(o.0)
    ensures o.0.config == s.config && o.0.queue == s.queue
    ensures o.1.None? <==> vendor == Succeeds && ParseInt(s.config.sampleRate).Some?
    ensures vendor.Raises? ==> o.1 == Some(vendor.error)
    ensures vendor == Succeeds && ParseInt(s.config.sampleRate).None? ==> o.1 == Some(BadSampleRate)
    ensures o.1.Some? ==> o.0.synthesizer.None?
    ensures o.1.None? ==>
              && o.0.callbacks == s.callbacks + [NewCallback]
              && o.0.synthesizer == Some(Synthesizer(
                   |s.callbacks|, s.config.appId, s.config.voiceType, s.config.codec,
                   ParseInt(s.config.sampleRate).value, s.config.enableSubtitle, false, []))
  {
    var dropped := s.(synthesizer := None);
    match vendor
    case Raises(e) => (dropped, Some(e))
    case Succeeds =>
      match ParseInt(s.config.sampleRate)
      case None => (dropped, Some(BadSampleRate))
      case Some(rate) =>
        var c := s.config;
        var synth := Synthesizer(|s.callbacks|, c.appId, c.voiceType, c.codec, rate, c.enableSubtitle, false, []);
        (dropped.(synthesizer := Some(synth), callbacks := s.callbacks + [NewCallback]), None)
  }

  /** `start`: starts the synthesizer if there is one (the vendor call may
      raise, and the exception propagates); otherwise only warns. */
  function Start(s: TencentTts, vendor: Step): (o: (TencentTts, Option<PyError>))
    ensures s.synthesizer.None? ==> o == (s, None)
    ensures s.synthesizer.Some? && vendor == Succeeds ==>
              o.1 == None && o.0 == s.(synthesizer := Some(s.synthesizer.value.(started := true)))
    ensures s.synthesizer.Some? && vendor.Raises? ==> o == (s, Some(vendor.error))
  {
    match s.synthesizer
    case None => (s, None)
    case Some(synth) =>
      match vendor
      case Raises(e) => (s, Some(e))
      case Succeeds => (s.(synthesizer := Some(synth.(started := true))), None)
  }

  /** `text_to_speech_stream`: without a synthesizer it logs and returns,
      creating none. Otherwise the text goes to `process`; any exception
      from it, a closed websocket or another, is caught and leaves the
      client with no synthesizer. The end-of-segment flag is ignored. */
  function TextToSpeechStream(s: TencentTts, text: string, endOfSegment: bool, process: Step): (r: TencentTts)
    ensures r.config == s.config && r.callbacks == s.callbacks && r.queue == s.queue
    ensures s.synthesizer.None? ==> r == s
    ensures s.synthesizer.Some? && process.Raises? ==> r.synthesizer.None?
    ensures s.synthesizer.Some? && process == Succeeds ==>
              r.synthesizer == Some(s.synthesizer.value.(processed := s.synthesizer.value.processed + [text]))
  {
    match s.synthesizer
    case None => s
    case Some(synth) =>
      match process
      case Raises(_) => s.(synthesizer := None)
      case Succeeds => s.(synthesizer := Some(synth.(processed := synth.processed + [text])))
  }

  /** `cancel`: forgets the synthesizer. Its callback is not closed. */
  function Cancel(s: TencentTts): (r: TencentTts)
    ensures r.synthesizer.None?
    ensures r.config == s.config && r.callbacks == s.callbacks && r.queue == s.queue
  {
    s.(synthesizer := None)
  }

  /** The vendor invokes callback `id`, which may belong to a synthesizer
      the client has already dropped. */
  function Deliver(s: TencentTts, id: nat, e: SynthesisEvent): (r: TencentTts)
    requires id < |s.callbacks|
    ensures r.synthesizer == s.synthesizer && |r.callbacks| == |s.callbacks|
    ensures forall i :: 0 <= i < |s.callbacks| && i != id ==> r.callbacks[i] == s.callbacks[i]
    ensures r.callbacks[id] == OnCallbackEvent(s.callbacks[id], s.queue, e).0
    ensures r.queue == OnCallbackEvent(s.callbacks[id], s.queue, e).1
  {
    var step := OnCallbackEvent(s.callbacks[id], s.queue, e);
    s.(callbacks := s.callbacks[id := step.0], queue := step.1)
  }

  /** Cancelling twice is cancelling once. */
  lemma CancelIsIdempotent(s: TencentTts)
    ensures Cancel(Cancel(s)) == Cancel(s)
  {
  }

  /** No lazy re-creation: once `process` has failed, later requests are
      no-ops until a synthesizer is created again. */
  lemma FailureDisablesRequests(s: TencentTts, t1: string, eos1: bool, error: PyError, t2: string, eos2: bool, p: Step)
    ensures var failed := TextToSpeechStream(s, t1, eos1, Raises(error));
            TextToSpeechStream(failed, t2, eos2, p) == failed
  {
  }

  /** The end-of-segment flag makes no difference to a request. */
  lemma EndOfSegmentIgnored(s: TencentTts, text: string, p: Step)
    ensures TextToSpeechStream(s, text, true, p) == TextToSpeechStream(s, text, false, p)
  {
  }

  /** Cancel does not silence the vendor: audio arriving on the cancelled
      synthesizer's still-open callback is put on the shared queue. */
  lemma CancelDoesNotSilenceCallback(s: TencentTts, audio: bytes)
    requires Valid(s) && s.synthesizer.Some?
    requires !s.callbacks[s.synthesizer.value.callback].closed
    ensures var c := Cancel(s);
            Deliver(c, s.synthesizer.value.callback, AudioResult(audio)).queue == s.queue + [Some(audio)]
  {
  }

  /** Re-creating the synthesizer leaves the previous callback open and
      attached to the same queue, so late audio of the old synthesis is
      interleaved with the new one's. */
  lemma RecreateKeepsOldCallback(s: TencentTts, audio: bytes)
    requires Valid(s) && s.synthesizer.Some?
    requires !s.callbacks[s.synthesizer.value.callback].closed
    requires ParseInt(s.config.sampleRate).Some?
    ensures var r := CreateSynthesizer(s, Succeeds).0;
            && r.synthesizer.value.callback != s.synthesizer.value.callback
            && Deliver(r, s.synthesizer.value.callback, AudioResult(audio)).queue == s.queue + [Some(audio)]
  {
  }

  /** The digits "16000" are worth 16000. */
  lemma SixteenThousand()
    ensures DigitsValue("16000") == 16000
  {
    var ds := "16000";
    assert DigitsValue(ds[..1]) == 1 by { assert ds[..1][..0] == []; }
    assert DigitsValue(ds[..2]) == 16 by { assert ds[..2][..1] == ds[..1]; }
    assert DigitsValue(ds[..3]) == 160 by { assert ds[..3][..2] == ds[..2]; }
    assert DigitsValue(ds[..4]) == 1600 by { assert ds[..4][..3] == ds[..3]; }
    assert ds[..4] == ds[..|ds| - 1];
  }

  /** The default sample rate "16000" is read as 16000. */
  lemma {:induction false} DefaultSampleRate()
    ensures ParseInt(DefaultConfig.sampleRate) == Some(16000)
  {
    ParsePlainDigits("16000");
    SixteenThousand();
  }
}

=== FILE: tencent_tts_extension.dfy ===
/** The Tencent TTS extension (`tencent_tts_python/extension.py`): ordered
    credential validation, client set-up in `on_start`, the audio drain
    loop, and the request and cancel entry points that delegate to the
    client. */
module TencentTtsExtension {
  import opened Common
  import opened HandoffQueue
  import opened PyText
  import opened TencentTts

  /** The first missing credential, checked in the order app_id, secret_id,
      secret_key; `None` when all three are present. The last message is
      spelled "secre_key" in the extension. */
  function ValidateCredentials(c: TtsConfig): (r: Option<PyError>)
    ensures r.None? <==> c.appId != "" && c.secretId != "" && c.secretKey != ""
    ensures r == Some(ValueError("app_id is required")) <==> c.appId == ""
    ensures r == Some(ValueError("secret_id is required")) <==> c.appId != "" && c.secretId == ""
    ensures r == Some(ValueError("secre_key is required")) <==>
              c.appId != "" && c.secretId != "" && c.secretKey == ""
  {
    if c.appId == "" then Some(ValueError("app_id is required"))
    else if c.secretId == "" then Some(ValueError("secret_id is required"))
    else if c.secretKey == "" then Some(ValueError("secre_key is required"))
    else None
  }

  /** `TencentTTSExtension`: its client, if one was built, and whether the
      audio drain task was started. */
  datatype TtsExtension = TtsExtension(client: Option<TencentTts>, drainStarted: bool)

  const NewTtsExtension: TtsExtension := TtsExtension(None, false)

  /** `on_start`: validates the credentials; if they pass, installs a new
      client, creates its synthesizer and starts it. The first exception
      from any of these is caught and logged (`logged`), and whatever was
      already assigned stays: a failing `create_synthesizer` leaves a client
      without a synthesizer. The drain task is started in every case. */
  function OnStart(e: TtsExtension, config: TtsConfig, create: Step, start: Step): (o: (TtsExtension, Option<PyError>))
    requires e.client.Some? ==> Valid(e.client.value)
    ensures o.0.drainStarted
    ensures o.0.client.Some? ==> Valid(o.0.client.value)
    ensures ValidateCredentials(config).Some? ==>
              o.0.client == e.client && o.1 == ValidateCredentials(config)
    ensures ValidateCredentials(config).None? ==>
              o.0.client.Some? && o.0.client.value.config == config && o.0.client.value.queue == []
    ensures ValidateCredentials(config).None? && create == Succeeds && ParseInt(config.sampleRate).Some?
            && start == Succeeds ==>
              o.1 == None && o.0.client.value.synthesizer.Some? && o.0.client.value.synthesizer.value.started
    ensures o.1.None? ==> ValidateCredentials(config).None?
  {
    match ValidateCredentials(config)
    case Some(err) => (e.(drainStarted := true), Some(err))
    case None =>
      var created := CreateSynthesizer(NewTencentTts(config), create);
      if created.1.Some? then (TtsExtension(Some(created.0), true), created.1)
      else
        var started := Start(created.0, start);
        (TtsExtension(Some(started.0), true), started.1)
  }

  /** What the drain task did: the audio it sent out in order, whether it
      met the `None` sentinel, and the exception that ended it, if any. */
  datatype AudioDrain = AudioDrain(sent: seq<bytes>, stopped: bool, crashed: Option<PyError>)

  /** `_process_audio_data`: takes items from the client's queue in FIFO
      order and sends each one out until the first `None`; empty audio is
      sent too. With no client its first `self.client.get_audio_bytes()`
      raises `AttributeError` and nothing is sent. */
  function ProcessAudioData(e: TtsExtension): (d: AudioDrain)
    ensures e.client.None? ==> d == AudioDrain([], false, Some(AttributeError("get_audio_bytes")))
    ensures e.client.Some? ==>
              var q := e.client.value.queue;
              && d.crashed.None?
              && (d.stopped <==> None in q)
              && |d.sent| <= |q|
              && (forall i :: 0 <= i < |d.sent| ==> q[i] == Some(d.sent[i]))
              && (!d.stopped ==> |d.sent| == |q|)
  {
    match e.client
    case None => AudioDrain([], false, Some(AttributeError("get_audio_bytes")))
    case Some(c) =>
      var taken := Drain(c.queue);
      AudioDrain(taken.delivered, taken.stopped, None)
  }

  /** `on_request_tts`: passes the text and the end-of-segment flag to the
      client unchanged; with no client the call raises `AttributeError`. */
  function OnRequestTts(e: TtsExtension, text: string, endOfSegment: bool, process: Step): (o: (TtsExtension, Option<PyError>))
    ensures e.client.None? ==> o == (e, Some(AttributeError("text_to_speech_stream")))
    ensures e.client.Some? ==>
              o.1 == None
              && o.0 == e.(client := Some(TextToSpeechStream(e.client.value, text, endOfSegment, process)))
  {
    match e.client
    case None => (e, Some(AttributeError("text_to_speech_stream")))
    case Some(c) => (e.(client := Some(TextToSpeechStream(c, text, endOfSegment, process))), None)
  }

  /** `on_cancel_tts`: cancels through the client; with no client the call
      raises `AttributeError`. */
  function OnCancelTts(e: TtsExtension): (o: (TtsExtension, Option<PyError>))
    ensures e.client.None? ==> o == (e, Some(AttributeError("cancel")))
    ensures e.client.Some? ==> o == (e.(client := Some(Cancel(e.client.value))), None)
  {
    match e.client
    case None => (e, Some(AttributeError("cancel")))
    case Some(c) => (e.(client := Some(Cancel(c))), None)
  }

  /** With a credential missing, `on_start` itself succeeds, but the drain
      task it starts fails at once, and so do later requests. */
  lemma MissingCredentialBreaksDrain(config: TtsConfig, create: Step, start: Step, text: string, eos: bool, p: Step)
    requires config.appId == "" || config.secretId == "" || config.secretKey == ""
    ensures var e := OnStart(NewTtsExtension, config, create, start).0;
            && e.drainStarted && e.client.None?
            && ProcessAudioData(e).crashed == Some(AttributeError("get_audio_bytes"))
            && OnRequestTts(e, text, eos, p).1.Some?
  {
  }

  /** End to end: with valid credentials and a working vendor, a request is
      handed to the synthesizer, and the drain sends out exactly the audio
      the synthesizer's callback receives before synthesis ends, in order,
      then keeps waiting, since nothing puts the sentinel on this queue. */
  lemma RequestAudioReachesOutput(config: TtsConfig, text: string, eos: bool, events: seq<SynthesisEvent>)
    requires ValidateCredentials(config).None? && ParseInt(config.sampleRate).Some?
    ensures var e0 := OnStart(NewTtsExtension, config, Succeeds, Succeeds).0;
            var e1 := OnRequestTts(e0, text, eos, Succeeds).0;
            var c := e1.client.value;
            var delivered := OnCallbackEvents(c.callbacks[0], c.queue, events);
            var d := ProcessAudioData(e1.(client := Some(c.(queue := delivered.1))));
            && c.synthesizer.value.processed == [text]
            && c.synthesizer.value.callback == 0
            && d == AudioDrain(AudioOf(BeforeEnd(events)), false, None)
  {
    var e0 := OnStart(NewTtsExtension, config, Succeeds, Succeeds).0;
    var c := OnRequestTts(e0, text, eos, Succeeds).0.client.value;
    assert c.callbacks[0] == NewCallback && c.queue == [];
    ForwardsAudioUntilEnd([], events);
    DrainWithoutSentinel(AudioOf(BeforeEnd(events)));
  }
}

=== FILE: tts_latency.dfy ===
/** The latency statistics of the TTS test driver (`test_tts.py`): where each
    worker's log is written, how a timestamp is cleaned of terminal colour
    codes, and the per-line scan of a worker log that pairs each request's
    send point with its first receive point and emits one timing row per
    pair, skipping the first. */
module TtsLatency {
  import opened Common
  import opened PyText

  // ---------------------------------------------------------------------
  // `clean_timestamp`: removing ANSI "CSI ... m/K" sequences
  // ---------------------------------------------------------------------

  const Esc: char := '\U{1B}'

  /** A character of the bracket class `[0-?9;]`: the range '0'..'?', which
      already holds '9' and ';'. */
  predicate IsParamChar(c: char)
  {
    '0' <= c <= '?'
  }

  predicate IsFinalChar(c: char)
  {
    c == 'm' || c == 'K'
  }

  /** `t` is one whole match of the pattern `\x1b\[[0-?9;]*[mK]`. */
  predicate IsEscapeCode(t: string)
  {
    && |t| >= 3 && t[0] == Esc && t[1] == '[' && IsFinalChar(t[|t| - 1])
    && forall i :: 2 <= i < |t| - 1 ==> IsParamChar(t[i])
  }

  /** The escape code with parameters `params` and final character `f`. */
  function EscapeCode(params: string, f: char): string
  {
    [Esc, '['] + params + [f]
  }

  /** The number of leading parameter characters of `s`. */
  function ParamRun(s: string): (n: nat)
    ensures n <= |s|
    ensures forall i :: 0 <= i < n ==> IsParamChar(s[i])
    ensures n < |s| ==> !IsParamChar(s[n])
    decreases |s|
  {
    if |s| > 0 && IsParamChar(s[0]) then 1 + ParamRun(s[1..]) else 0
  }

  /** The length of the pattern's match at the start of `s`, if it matches
      there. The parameter characters never include a final character, so
      the greedy star leaves nothing to backtrack over. */
  function EscapeLength(s: string): (r: Option<nat>)
    ensures r.Some? ==> r.value <= |s| && IsEscapeCode(s[..r.value])
  {
    if |s| >= 2 && s[0] == Esc && s[1] == '[' then
      var k := 2 + ParamRun(s[2..]);
      if k < |s| && IsFinalChar(s[k]) then Some(k + 1) else None
    else None
  }

  /** Every escape code at the start of `s` is found, with its own length. */
  lemma EscapeLengthFinds(t: string, rest: string)
    requires IsEscapeCode(t)
    ensures EscapeLength(t + rest) == Some(|t|)
  {
    var s := t + rest;
    var params := s[2..];
    forall i | 0 <= i < |t| - 3 ensures IsParamChar(params[i]) {
      assert params[i] == t[2 + i];
    }
    assert params[|t| - 3] == t[|t| - 1];
    assert !IsParamChar(params[|t| - 3]);
  }

  /** `clean_timestamp`: `re.sub` of every escape code by nothing, scanning
      left to right; a character that does not start a match is kept. */
  function CleanTimestamp(s: string): (r: string)
    ensures |r| <= |s|
    decreases |s|
  {
    if |s| == 0 then []
    else
      match EscapeLength(s)
      case Some(n) => CleanTimestamp(s[n..])
      case None => [s[0]] + CleanTimestamp(s[1..])
  }

  /** Text without an escape character is kept as it is. */
  lemma {:induction false} CleanKeepsPlainPrefix(x: string, rest: string)
    requires Esc !in x
    ensures CleanTimestamp(x + rest) == x + CleanTimestamp(rest)
    decreases |x|
  {
    if |x| > 0 {
      var s := x + rest;
      assert s[0] == x[0] && x[0] != Esc;
      assert EscapeLength(s).None?;
      assert s[1..] == x[1..] + rest;
      assert CleanTimestamp(s) == [x[0]] + CleanTimestamp(x[1..] + rest);
      CleanKeepsPlainPrefix(x[1..], rest);
      assert [x[0]] + (x[1..] + CleanTimestamp(rest)) == x + CleanTimestamp(rest);
    } else {
      assert x + rest == rest;
    }
  }

  /** An escape code is removed whole. */
  lemma CleanRemovesEscapeCode(t: string, rest: string)
    requires IsEscapeCode(t)
    ensures CleanTimestamp(t + rest) == CleanTimestamp(rest)
  {
    EscapeLengthFinds(t, rest);
    assert (t + rest)[|t|..] == rest;
  }

  /** A character that does not start an escape code is kept, an escape
      character included, and cleaning goes on after it. */
  lemma CleanKeepsUnmatchedChar(c: char, rest: string)
    requires EscapeLength([c] + rest).None?
    ensures CleanTimestamp([c] + rest) == [c] + CleanTimestamp(rest)
  {
    assert ([c] + rest)[1..] == rest;
  }

  /** A coloured timestamp as a terminal logger writes it comes out bare. */
  lemma CleanColouredTimestamp(digits: string)
    requires Esc !in digits
    ensures CleanTimestamp(EscapeCode("32", 'm') + digits + EscapeCode("0", 'm')) == digits
  {
    var reset := EscapeCode("0", 'm');
    assert IsEscapeCode(EscapeCode("32", 'm'));
    assert IsEscapeCode(reset);
    CleanRemovesEscapeCode(EscapeCode("32", 'm'), digits + reset);
    assert EscapeCode("32", 'm') + digits + reset == EscapeCode("32", 'm') + (digits + reset);
    CleanKeepsPlainPrefix(digits, reset);
    CleanRemovesEscapeCode(reset, []);
    assert reset + [] == reset;
    assert CleanTimestamp([]) == [];
  }

  /** Cleaning is not idempotent: removing a code can bring an escape
      character next to a bracket that follows it. */
  lemma CleanIsNotIdempotent()
    ensures var s := [Esc, Esc, '[', 'm', '[', 'm'];
            && CleanTimestamp(s) == EscapeCode("", 'm')
            && CleanTimestamp(CleanTimestamp(s)) == []
  {
    var s := [Esc, Esc, '[', 'm', '[', 'm'];
    assert EscapeLength(s).None?;
    assert s[1..] == EscapeCode("", 'm') + "[m";
    CleanRemovesEscapeCode(EscapeCode("", 'm'), "[m");
    CleanKeepsPlainPrefix("[m", []);
    assert "[m" + [] == "[m";
    assert CleanTimestamp(s) == [Esc] + CleanTimestamp(s[1..]);
    assert [Esc] + "[m" == EscapeCode("", 'm');
    CleanRemovesEscapeCode(EscapeCode("", 'm'), []);
    assert EscapeCode("", 'm') + [] == EscapeCode("", 'm');
  }

  // ---------------------------------------------------------------------
  // `get_property_json`: `template % vendor`
  // ---------------------------------------------------------------------

  /** `prefix` put in front of a successful result. */
  function Prefixed(prefix: string, r: Result<string>): Result<string>
  {
    match r
    case Ok(v) => Ok(prefix + v)
    case Err(e) => Err(e)
  }

  /** `t % arg` for one string argument, from the position after which the
      argument has (`used`) or has not yet been consumed: `%%` is a literal
      percent sign, the first `%s` is the argument; a second `%s` raises
      `TypeError` (not enough arguments), a template with none raises
      `TypeError` (not all arguments converted), and a lone trailing `%`
      raises `ValueError`. Python's `%` accepts more than this (`%r`, `%a`,
      a one-character `%c`, flags and widths such as `%5s` or `%-s`) and
      raises `TypeError` for a numeric conversion of a string; the model
      treats every conversion other than `%s` and `%%`, and every flag or
      width, as a `ValueError`. The template the test driver formats,
      `DefaultPropertyTemplate`, uses only `%s`. */
  function FormatFrom(t: string, arg: string, used: bool): (r: Result<string>)
    decreases |t|
  {
    if |t| == 0 then (if used then Ok([]) else Err(TypeError))
    else if t[0] != '%' then Prefixed([t[0]], FormatFrom(t[1..], arg, used))
    else if |t| == 1 then Err(ValueError("incomplete format"))
    else if t[1] == '%' then Prefixed("%", FormatFrom(t[2..], arg, used))
    else if t[1] == 's' then (if used then Err(TypeError) else Prefixed(arg, FormatFrom(t[2..], arg, true)))
    else Err(ValueError("unsupported format character"))
  }

  /** `get_property_json`. */
  function GetPropertyJson(template: string, vendor: string): Result<string>
  {
    FormatFrom(template, vendor, false)
  }

  const PropertyPrefix: string := "/app/tests_tts_property/test_tts_"
  const PropertySuffix: string := "_property.json"

  /** "/app/tests_tts_property/test_tts_%s_property.json" */
  const DefaultPropertyTemplate: string := PropertyPrefix + "%s" + PropertySuffix

  /** The literal text `x` written as a format template: every `%` doubled. */
  function EscapePercent(x: string): (t: string)
    ensures '%' !in x ==> t == x
    decreases |x|
  {
    if |x| == 0 then [] else (if x[0] == '%' then "%%" else [x[0]]) + EscapePercent(x[1..])
  }

  /** A character other than `%` is copied. */
  lemma FormatLiteral(c: char, tail: string, arg: string, used: bool)
    requires c != '%'
    ensures FormatFrom([c] + tail, arg, used) == Prefixed([c], FormatFrom(tail, arg, used))
  {
    assert ([c] + tail)[1..] == tail;
  }

  /** `%%` is a literal percent sign. */
  lemma FormatPercent(tail: string, arg: string, used: bool)
    ensures FormatFrom("%%" + tail, arg, used) == Prefixed("%", FormatFrom(tail, arg, used))
  {
    assert ("%%" + tail)[2..] == tail;
  }

  /** `%s` takes the argument the first time and fails the second time. */
  lemma FormatSlot(tail: string, arg: string, used: bool)
    ensures FormatFrom("%s" + tail, arg, used)
            == if used then Err(TypeError) else Prefixed(arg, FormatFrom(tail, arg, true))
  {
    assert ("%s" + tail)[2..] == tail;
  }

  lemma PrefixedTwice(p: string, q: string, r: Result<string>)
    ensures Prefixed(p, Prefixed(q, r)) == Prefixed(p + q, r)
  {
    match r
    case Ok(v) => assert p + (q + v) == (p + q) + v;
    case Err(_) =>
  }

  lemma PrefixedEmpty(r: Result<string>)
    ensures Prefixed([], r) == r
  {
    match r
    case Ok(v) => assert [] + v == v;
    case Err(_) =>
  }

  /** The first character of `x`, escaped, in front of the rest. */
  lemma EscapeHead(x: string, rest: string)
    requires |x| > 0
    ensures EscapePercent(x) + rest == (if x[0] == '%' then "%%" else [x[0]]) + (EscapePercent(x[1..]) + rest)
  {
  }

  /** An escaped character is read back as itself. */
  lemma FormatEscapedChar(c: char, tail: string, arg: string, used: bool)
    ensures FormatFrom((if c == '%' then "%%" else [c]) + tail, arg, used) == Prefixed([c], FormatFrom(tail, arg, used))
  {
    if c == '%' {
      FormatPercent(tail, arg, used);
    } else {
      FormatLiteral(c, tail, arg, used);
    }
  }

  /** Formatting reads an escaped literal back as the literal. */
  lemma {:induction false} FormatEscaped(x: string, rest: string, arg: string, used: bool)
    ensures FormatFrom(EscapePercent(x) + rest, arg, used) == Prefixed(x, FormatFrom(rest, arg, used))
    decreases |x|
  {
    if |x| > 0 {
      var tail := EscapePercent(x[1..]) + rest;
      EscapeHead(x, rest);
      FormatEscapedChar(x[0], tail, arg, used);
      FormatEscaped(x[1..], rest, arg, used);
      PrefixedTwice([x[0]], x[1..], FormatFrom(rest, arg, used));
      assert [x[0]] + x[1..] == x;
    } else {
      assert EscapePercent(x) + rest == rest;
      PrefixedEmpty(FormatFrom(rest, arg, used));
    }
  }

  /** A template with exactly one `%s` between two escaped literals gives
      the two literals with the argument between them. */
  lemma FormatOneSlot(pre: string, post: string, arg: string)
    ensures GetPropertyJson(EscapePercent(pre) + "%s" + EscapePercent(post), arg) == Ok(pre + arg + post)
  {
    var tail := EscapePercent(post);
    FormatEscaped(post, [], arg, true);
    assert tail + [] == tail && post + [] == post;
    assert FormatFrom(tail, arg, true) == Ok(post);
    FormatSlot(tail, arg, false);
    assert FormatFrom("%s" + tail, arg, false) == Ok(arg + post);
    FormatEscaped(pre, "%s" + tail, arg, false);
    assert EscapePercent(pre) + "%s" + tail == EscapePercent(pre) + ("%s" + tail);
    assert pre + (arg + post) == pre + arg + post;
  }

  /** A template without a conversion raises `TypeError`. */
  lemma FormatWithoutSlot(x: string, arg: string)
    ensures GetPropertyJson(EscapePercent(x), arg) == Err(TypeError)
  {
    FormatEscaped(x, [], arg, false);
    assert EscapePercent(x) + [] == EscapePercent(x);
  }

  /** A template with two `%s` raises `TypeError`. */
  lemma FormatTwoSlots(pre: string, mid: string, post: string, arg: string)
    ensures GetPropertyJson(EscapePercent(pre) + "%s" + EscapePercent(mid) + "%s" + post, arg) == Err(TypeError)
  {
    var second := "%s" + post;
    var after := EscapePercent(mid) + second;
    assert EscapePercent(pre) + "%s" + EscapePercent(mid) + "%s" + post == EscapePercent(pre) + ("%s" + after);
    FormatEscaped(pre, "%s" + after, arg, false);
    FormatSlot(after, arg, false);
    FormatEscaped(mid, second, arg, true);
    FormatSlot(post, arg, true);
  }

  lemma PropertyPartsHaveNoPercent()
    ensures '%' !in PropertyPrefix && '%' !in PropertySuffix
  {
  }

  /** The default property path names the vendor. */
  lemma DefaultPropertyJson(vendor: string)
    ensures GetPropertyJson(DefaultPropertyTemplate, vendor)
            == Ok("/app/tests_tts_property/test_tts_" + vendor + "_property.json")
  {
    PropertyPartsHaveNoPercent();
    FormatOneSlot(PropertyPrefix, PropertySuffix, vendor);
  }

  // ---------------------------------------------------------------------
  // `get_worker_log_file`: `os.path` on POSIX
  // ---------------------------------------------------------------------

  /** `os.path.basename(p)`: what follows the last '/'. */
  function Basename(p: string): string
    decreases |p|
  {
    if |p| == 0 || p[|p| - 1] == '/' then [] else Basename(p[..|p| - 1]) + [p[|p| - 1]]
  }

  /** The basename is the part of the path after its last separator: a
      separator-free suffix, preceded by a separator unless it is the whole
      path. */
  lemma {:induction false} BasenameIsLastComponent(p: string)
    ensures var r := Basename(p);
            && |r| <= |p| && r == p[|p| - |r|..]
            && '/' !in r
            && (|r| < |p| ==> p[|p| - |r| - 1] == '/')
    decreases |p|
  {
    if |p| > 0 && p[|p| - 1] != '/' {
      var q, c := p[..|p| - 1], p[|p| - 1];
      BasenameIsLastComponent(q);
      var rq := Basename(q);
      var k := |q| - |rq|;
      assert Basename(p) == rq + [c];
      assert p[k..] == q[k..] + [c];
      assert '/' !in rq + [c];
      if k > 0 {
        assert p[k - 1] == q[k - 1];
      }
    }
  }

  /** What `os.path.join(a, b)` puts before a relative `b`: `a`, with a '/'
      added unless `a` is empty or already ends with one. */
  function JoinPrefix(a: string): (p: string)
    ensures |p| == 0 || p[|p| - 1] == '/'
  {
    if |a| == 0 || a[|a| - 1] == '/' then a else a + "/"
  }

  /** `os.path.join(a, b)`: an absolute `b` replaces `a`; a relative one is
      appended to `a` as a new last component. */
  function Join(a: string, b: string): (r: string)
    ensures |b| > 0 && b[0] == '/' ==> r == b
    ensures !(|b| > 0 && b[0] == '/') ==> r == JoinPrefix(a) + b
  {
    if |b| > 0 && b[0] == '/' then b else JoinPrefix(a) + b
  }

  /** The last component of a path that ends in a separator followed by
      `b`, or is `b` alone. */
  lemma {:induction false} BasenameAfterSeparator(x: string, b: string)
    requires '/' !in b
    requires |x| == 0 || x[|x| - 1] == '/'
    ensures Basename(x + b) == b
    decreases |b|
  {
    if |b| > 0 {
      var p := x + b;
      assert p[..|p| - 1] == x + b[..|b| - 1];
      BasenameAfterSeparator(x, b[..|b| - 1]);
      assert b[..|b| - 1] + [b[|b| - 1]] == b;
    } else {
      assert x + b == x;
    }
  }

  /** Joining a relative name without separators and taking the basename
      gives the name back. */
  lemma BasenameOfJoin(a: string, b: string)
    requires '/' !in b
    ensures Basename(Join(a, b)) == b
  {
    if |b| > 0 {
      assert b[0] in b;
    }
    BasenameAfterSeparator(JoinPrefix(a), b);
  }

  const WorkerLogPrefix: string := "tts_test_worker_"
  const LogSuffix: string := ".log"

  /** The worker log's file name for one text file and vendor. */
  function WorkerLogName(batch: string, txtFile: string, vendor: string): string
  {
    WorkerLogPrefix + batch + "_" + Basename(txtFile) + "_" + vendor + LogSuffix
  }

  /** `get_worker_log_file`: the worker log name under the logs directory. */
  function GetWorkerLogFile(logsDir: string, batch: string, txtFile: string, vendor: string): (path: string)
    ensures path == JoinPrefix(logsDir) + WorkerLogName(batch, txtFile, vendor)
  {
    assert WorkerLogName(batch, txtFile, vendor)[0] == 't';
    Join(logsDir, WorkerLogName(batch, txtFile, vendor))
  }

  lemma FixedPartsHaveNoSeparator()
    ensures '/' !in WorkerLogPrefix && '/' !in "_" && '/' !in LogSuffix
  {
  }

  /** With separator-free batch and vendor, the worker log sits directly in
      the logs directory under its own name. */
  lemma WorkerLogFileName(logsDir: string, batch: string, txtFile: string, vendor: string)
    requires '/' !in batch && '/' !in vendor
    ensures Basename(GetWorkerLogFile(logsDir, batch, txtFile, vendor)) == WorkerLogName(batch, txtFile, vendor)
  {
    FixedPartsHaveNoSeparator();
    BasenameIsLastComponent(txtFile);
    var name := WorkerLogName(batch, txtFile, vendor);
    assert '/' !in name;
    BasenameOfJoin(logsDir, name);
  }

  /** Different vendors write different worker logs for the same text file. */
  lemma WorkerLogPerVendor(logsDir: string, batch: string, txtFile: string, v1: string, v2: string)
    requires GetWorkerLogFile(logsDir, batch, txtFile, v1) == GetWorkerLogFile(logsDir, batch, txtFile, v2)
    ensures v1 == v2
  {
    var dir := JoinPrefix(logsDir);
    var head := WorkerLogPrefix + batch + "_" + Basename(txtFile) + "_";
    var n1 := head + v1 + LogSuffix;
    var n2 := head + v2 + LogSuffix;
    assert n1 == WorkerLogName(batch, txtFile, v1) && n2 == WorkerLogName(batch, txtFile, v2);
    assert (dir + n1)[|dir|..] == n1 && (dir + n2)[|dir|..] == n2;
    assert n1 == n2;
    assert v1 == n1[|head|..|head| + |v1|];
    assert v2 == n2[|head|..|head| + |v2|];
  }

  // ---------------------------------------------------------------------
  // The per-line scan of `stat`
  // ---------------------------------------------------------------------

  const SendMarker: string := "TTS_TEST_POINT_SEND"
  const ReceivedMarker: string := "TTS_TEST_POINT_RECEIVED"
  const Vendors: seq<string> := ["elevenlabs", "fish_audio", "cartesia"]

  /** A timestamp as the scan keeps it: its cleaned text, and what `int()`
      makes of it (`None` where `int()` raises `ValueError`). */
  datatype Stamp = Stamp(text: string, value: Option<int>)

  function ReadStamp(text: string): (s: Stamp)
    ensures s.text == text && s.value == ParseInt(text)
  {
    Stamp(text, ParseInt(text))
  }

  /** The initial timestamps are the integer 0, which `%s` writes as "0"
      and `int()` reads as 0, like the string "0". */
  const ZeroStamp: Stamp := Stamp("0", Some(0))

  lemma {:induction false} ZeroStampIsRead()
    ensures ReadStamp("0") == ZeroStamp
  {
    ParsePlainDigits("0");
    assert "0"[..0] == [];
  }

  /** The cleaned, stripped text between `marker + ":"` and its next
      occurrence, if the line has that separator. */
  function TimestampAfter(line: string, marker: string): (r: Option<string>)
    ensures r.Some? <==> Contains(line, marker + ":")
  {
    match SplitPart1(line, marker + ":")
    case None => None
    case Some(part) => Some(CleanTimestamp(Strip(part)))
  }

  /** What the scan reads from one line: whether it mentions each marker
      and, for a marker it mentions, the timestamp after `marker + ":"`
      if the line has that separator. */
  datatype LineMarks = LineMarks(send: bool, sendStamp: Option<Stamp>, received: bool, receivedStamp: Option<Stamp>)

  /** The stamp a marker block takes from a line that mentions the marker. */
  function StampAfter(line: string, marker: string): (r: Option<Stamp>)
    ensures r.Some? <==> Contains(line, marker + ":")
    ensures r.Some? ==> r.value == ReadStamp(TimestampAfter(line, marker).value)
  {
    match TimestampAfter(line, marker)
    case None => None
    case Some(t) => Some(ReadStamp(t))
  }

  function Marks(line: string): (m: LineMarks)
    ensures m.send <==> Contains(line, SendMarker)
    ensures m.received <==> Contains(line, ReceivedMarker)
    ensures m.sendStamp == (if m.send then StampAfter(line, SendMarker) else None)
    ensures m.receivedStamp == (if m.received then StampAfter(line, ReceivedMarker) else None)
  {
    var send := Contains(line, SendMarker);
    var received := Contains(line, ReceivedMarker);
    LineMarks(send, if send then StampAfter(line, SendMarker) else None,
              received, if received then StampAfter(line, ReceivedMarker) else None)
  }

  /** The marks of every line of a log. */
  function MarksOf(lines: seq<string>): (ms: seq<LineMarks>)
    ensures |ms| == |lines|
    ensures forall i :: 0 <= i < |lines| ==> ms[i] == Marks(lines[i])
  {
    seq(|lines|, i requires 0 <= i < |lines| => Marks(lines[i]))
  }

  /** The scan state of one worker log. */
  datatype ScanState = ScanState(
    sendFound: bool,
    sendCount: nat,
    receivedFound: bool,
    tsStart: Stamp,
    tsEnd: Stamp)

  const InitialScan: ScanState := ScanState(false, 0, false, ZeroStamp, ZeroStamp)

  /** The SEND block: a line mentioning the send marker counts a send,
      marks it found, forgets any receive, and takes the start timestamp
      after "TTS_TEST_POINT_SEND:" when the line has that separator. */
  function OnSend(st: ScanState, m: LineMarks): (r: ScanState)
    ensures !m.send ==> r == st
    ensures m.send ==>
              && r.sendFound && !r.receivedFound && r.sendCount == st.sendCount + 1 && r.tsEnd == st.tsEnd
              && r.tsStart == (if m.sendStamp.Some? then m.sendStamp.value else st.tsStart)
  {
    if !m.send then st
    else
      st.(sendFound := true, sendCount := st.sendCount + 1, receivedFound := false,
          tsStart := if m.sendStamp.Some? then m.sendStamp.value else st.tsStart)
  }

  /** The RECEIVED block: marks a receive and takes the end timestamp after
      "TTS_TEST_POINT_RECEIVED:" when the line has that separator. */
  function OnReceived(st: ScanState, m: LineMarks): (r: ScanState)
    ensures !m.received ==> r == st
    ensures m.received ==>
              && r.receivedFound && r.sendFound == st.sendFound && r.sendCount == st.sendCount
              && r.tsStart == st.tsStart
              && r.tsEnd == (if m.receivedStamp.Some? then m.receivedStamp.value else st.tsEnd)
  {
    if !m.received then st
    else st.(receivedFound := true, tsEnd := if m.receivedStamp.Some? then m.receivedStamp.value else st.tsEnd)
  }

  /** One emitted timing: start, end and their difference in ms. */
  datatype Timing = Timing(tsStart: string, tsEnd: string, duration: int)

  /** A line's effect: the new state, the timing it emitted, and whether a
      timestamp that is not an integer ended the file's scan. */
  datatype LineStep = LineStep(state: ScanState, emitted: Option<Timing>, aborted: bool)

  /** A row is due when a send and a receive were both found and this is
      not the first send. */
  predicate RowDue(st: ScanState)
  {
    st.sendFound && st.receivedFound && st.sendCount > 1
  }

  /** One line of a worker log: the SEND block, then the RECEIVED block
      (both apply to a line with both markers), then, if a row is due, the
      row with duration `int(ts_end) - int(ts_start)`, after which the send
      is marked used. If either timestamp is not an integer, `int()` raises
      and the rest of the file is skipped. */
  function ScanLine(st: ScanState, m: LineMarks): (r: LineStep)
    ensures r.state.sendCount == st.sendCount + (if m.send then 1 else 0)
    ensures r.state.sendCount <= 1 ==> r.emitted.None? && !r.aborted
    ensures !st.sendFound && !m.send ==> r.emitted.None? && !r.aborted && !r.state.sendFound
    ensures r.emitted.Some? ==>
              && !r.aborted && !r.state.sendFound && r.state.receivedFound
              && r.emitted.value.tsStart == r.state.tsStart.text && r.emitted.value.tsEnd == r.state.tsEnd.text
              && r.state.tsStart.value.Some? && r.state.tsEnd.value.Some?
              && r.emitted.value.duration == r.state.tsEnd.value.value - r.state.tsStart.value.value
    ensures r.aborted ==> r.emitted.None? && (r.state.tsStart.value.None? || r.state.tsEnd.value.None?)
    ensures r.state.sendFound ==> st.sendFound || m.send
    ensures var seen := OnReceived(OnSend(st, m), m);
            && (r.emitted.Some? || r.aborted <==> RowDue(seen))
            && (r.aborted <==> RowDue(seen) && (seen.tsStart.value.None? || seen.tsEnd.value.None?))
            && r.state.tsStart == seen.tsStart && r.state.tsEnd == seen.tsEnd
            && r.state.receivedFound == seen.receivedFound
            && r.state.sendFound == (seen.sendFound && r.emitted.None?)
  {
    var seen := OnReceived(OnSend(st, m), m);
    if !RowDue(seen) then LineStep(seen, None, false)
    else
      match seen.tsEnd.value
      case None => LineStep(seen, None, true)
      case Some(end) =>
        match seen.tsStart.value
        case None => LineStep(seen, None, true)
        case Some(start) =>
          LineStep(seen.(sendFound := false), Some(Timing(seen.tsStart.text, seen.tsEnd.text, end - start)), false)
  }

  /** The scan of the rest of a file: the timings emitted, whether it was
      cut short, and the state it ended in. */
  datatype Scan = Scan(timings: seq<Timing>, aborted: bool, final: ScanState)

  function ScanLines(st: ScanState, ms: seq<LineMarks>): (r: Scan)
    ensures |r.timings| <= |ms|
    decreases |ms|
  {
    if |ms| == 0 then Scan([], false, st)
    else
      var step := ScanLine(st, ms[0]);
      if step.aborted then Scan([], true, step.state)
      else
        var rest := ScanLines(step.state, ms[1..]);
        Scan((if step.emitted.Some? then [step.emitted.value] else []) + rest.timings, rest.aborted, rest.final)
  }

  /** A line that makes a row due while either timestamp is not an
      integer ends the scan of its file: no row from it, and no later line
      of the file is read. */
  lemma BadStampAbortsFile(st: ScanState, m: LineMarks, later: seq<LineMarks>)
    requires var seen := OnReceived(OnSend(st, m), m);
             RowDue(seen) && (seen.tsStart.value.None? || seen.tsEnd.value.None?)
    ensures var r := ScanLines(st, [m] + later);
            r.aborted && r.timings == [] && r.final == OnReceived(OnSend(st, m), m)
  {
    assert ([m] + later)[0] == m;
  }

  /** The number of lines that mention the send marker. */
  function SendLines(ms: seq<LineMarks>): nat
    decreases |ms|
  {
    if |ms| == 0 then 0 else (if ms[0].send then 1 else 0) + SendLines(ms[1..])
  }

  function Max0(n: int): nat
  {
    if n > 0 then n else 0
  }

  /** A send that could still produce a row: found, and not the first. */
  function Pending(st: ScanState): nat
  {
    if st.sendFound && st.sendCount >= 2 then 1 else 0
  }

  /** One line never emits more than the sends it adds allow. */
  lemma LineBudget(st: ScanState, m: LineMarks)
    ensures var r := ScanLine(st, m);
            (if r.emitted.Some? then 1 else 0) + Pending(r.state) + Max0(st.sendCount - 1)
              <= Pending(st) + Max0(r.state.sendCount - 1)
  {
  }

  /** The budget over a run of lines. */
  lemma {:induction false} ScanBudget(st: ScanState, ms: seq<LineMarks>)
    ensures var r := ScanLines(st, ms);
            && r.final.sendCount <= st.sendCount + SendLines(ms)
            && |r.timings| + Pending(r.final) + Max0(st.sendCount - 1) <= Pending(st) + Max0(r.final.sendCount - 1)
    decreases |ms|
  {
    if |ms| > 0 {
      var step := ScanLine(st, ms[0]);
      LineBudget(st, ms[0]);
      if !step.aborted {
        ScanBudget(step.state, ms[1..]);
      }
    }
  }

  /** A log yields at most one row per send line after the first. */
  lemma RowsBoundedBySends(ms: seq<LineMarks>)
    ensures |ScanLines(InitialScan, ms).timings| <= Max0(SendLines(ms) - 1)
  {
    ScanBudget(InitialScan, ms);
  }

  /** The relation `ScanAppend` proves: scanning `a + b` is scanning `a`,
      then `b` from where `a` left off, unless `a` aborted. */
  predicate ScansCompose(st: ScanState, a: seq<LineMarks>, b: seq<LineMarks>)
  {
    var ra := ScanLines(st, a);
    ScanLines(st, a + b) ==
      if ra.aborted then ra
      else
        var rb := ScanLines(ra.final, b);
        Scan(ra.timings + rb.timings, rb.aborted, rb.final)
  }

  /** Scanning `a + b` is scanning `a`, then `b` from where `a` left off;
      once a line aborts, nothing after it is read, and the rows already
      emitted are kept. */
  lemma {:induction false} ScanAppend(st: ScanState, a: seq<LineMarks>, b: seq<LineMarks>)
    ensures ScansCompose(st, a, b)
    decreases |a|
  {
    if |a| == 0 {
      assert a + b == b;
    } else {
      var ab := a + b;
      assert ab[0] == a[0];
      assert ab[1..] == a[1..] + b;
      var step := ScanLine(st, a[0]);
      if !step.aborted {
        ScanAppend(step.state, a[1..], b);
        var head := if step.emitted.Some? then [step.emitted.value] else [];
        var ra := ScanLines(step.state, a[1..]);
        if !ra.aborted {
          var rb := ScanLines(ra.final, b);
          assert head + (ra.timings + rb.timings) == (head + ra.timings) + rb.timings;
        }
      }
    }
  }

  // ---------------------------------------------------------------------
  // A reference reading of a well-formed worker log
  // ---------------------------------------------------------------------

  /** A line that logs a send with the given stamp. */
  function SendLine(s: Stamp): LineMarks
  {
    LineMarks(true, Some(s), false, None)
  }

  /** A line that logs a received audio chunk with the given stamp. */
  function ReceivedLine(s: Stamp): LineMarks
  {
    LineMarks(false, None, true, Some(s))
  }

  /** One request as a worker logs it: the send, then one receive line per
      audio chunk that came back. */
  datatype Request = Request(start: Stamp, chunks: seq<Stamp>)

  /** At least one chunk came back, and the send stamp and the first
      chunk's stamp are integers. */
  predicate WellFormed(r: Request)
  {
    |r.chunks| > 0 && r.start.value.Some? && r.chunks[0].value.Some?
  }

  function ReceivedLines(chunks: seq<Stamp>): seq<LineMarks>
    decreases |chunks|
  {
    if |chunks| == 0 then [] else [ReceivedLine(chunks[0])] + ReceivedLines(chunks[1..])
  }

  function RequestLines(r: Request): seq<LineMarks>
  {
    [SendLine(r.start)] + ReceivedLines(r.chunks)
  }

  /** The lines of a log of requests, one request after another. */
  function LogLines(reqs: seq<Request>): seq<LineMarks>
    decreases |reqs|
  {
    if |reqs| == 0 then [] else RequestLines(reqs[0]) + LogLines(reqs[1..])
  }

  /** The latency a request is meant to measure: from its send to its first
      audio chunk. */
  function Latency(r: Request): Timing
    requires WellFormed(r)
  {
    Timing(r.start.text, r.chunks[0].text, r.chunks[0].value.value - r.start.value.value)
  }

  function Latencies(reqs: seq<Request>): seq<Timing>
    requires forall i :: 0 <= i < |reqs| ==> WellFormed(reqs[i])
    decreases |reqs|
  {
    if |reqs| == 0 then [] else [Latency(reqs[0])] + Latencies(reqs[1..])
  }

  /** Receive lines read while no send is waiting, or while the only send is
      the first one, emit nothing and leave the send bookkeeping alone. */
  lemma {:induction false} ReceivesAreQuiet(st: ScanState, chunks: seq<Stamp>)
    requires !st.sendFound || st.sendCount <= 1
    ensures var s := ScanLines(st, ReceivedLines(chunks));
            && s.timings == [] && !s.aborted
            && s.final.sendFound == st.sendFound && s.final.sendCount == st.sendCount
    decreases |chunks|
  {
    if |chunks| > 0 {
      var ms := ReceivedLines(chunks);
      assert ms[0] == ReceivedLine(chunks[0]) && ms[1..] == ReceivedLines(chunks[1..]);
      ReceivesAreQuiet(ScanLine(st, ms[0]).state, chunks[1..]);
    }
  }

  /** The first request of a log emits nothing, whatever its stamps: its
      send only counts as the first. */
  lemma FirstRequestIsSkipped(r: Request)
    ensures var s := ScanLines(InitialScan, RequestLines(r));
            s.timings == [] && !s.aborted && s.final.sendCount == 1
  {
    var send := SendLine(r.start);
    var step := ScanLine(InitialScan, send);
    assert step.state.sendCount == 1 && !step.aborted && step.emitted.None?;
    assert [send][1..] == [];
    assert ScanLines(InitialScan, [send]) == Scan([], false, step.state);
    ReceivesAreQuiet(step.state, r.chunks);
    ScanAppend(InitialScan, [send], ReceivedLines(r.chunks));
  }

  /** After the first send, a well-formed request emits exactly its latency
      and leaves its send used. */
  lemma RequestEmitsLatency(st: ScanState, r: Request)
    requires st.sendCount >= 1 && WellFormed(r)
    ensures var s := ScanLines(st, RequestLines(r));
            && s.timings == [Latency(r)] && !s.aborted
            && !s.final.sendFound && s.final.sendCount == st.sendCount + 1
  {
    var send := SendLine(r.start);
    var first := ReceivedLine(r.chunks[0]);
    var pair := [send, first];
    assert pair[1..] == [first] && [first][1..] == [];
    var s1 := ScanLine(st, send).state;
    var s2 := ScanLine(s1, first);
    assert s2.emitted == Some(Latency(r));
    ReceivesAreQuiet(s2.state, r.chunks[1..]);
    assert RequestLines(r) == pair + ReceivedLines(r.chunks[1..]);
    ScanAppend(st, pair, ReceivedLines(r.chunks[1..]));
  }

  lemma {:induction false} LaterRequestsEmitLatencies(st: ScanState, reqs: seq<Request>)
    requires st.sendCount >= 1 && forall i :: 0 <= i < |reqs| ==> WellFormed(reqs[i])
    ensures var s := ScanLines(st, LogLines(reqs));
            s.timings == Latencies(reqs) && !s.aborted
    decreases |reqs|
  {
    if |reqs| > 0 {
      RequestEmitsLatency(st, reqs[0]);
      var s0 := ScanLines(st, RequestLines(reqs[0]));
      LaterRequestsEmitLatencies(s0.final, reqs[1..]);
      ScanAppend(st, RequestLines(reqs[0]), LogLines(reqs[1..]));
    }
  }

  /** Against the reference: the rows a log of requests yields are the
      latencies of every request but the first, in order, each measured to
      its first audio chunk; later chunks of a request add no row. */
  lemma {:induction false} WellFormedLogTimings(reqs: seq<Request>)
    requires |reqs| > 0 && forall i :: 1 <= i < |reqs| ==> WellFormed(reqs[i])
    ensures var s := ScanLines(InitialScan, LogLines(reqs));
            s.timings == Latencies(reqs[1..]) && !s.aborted
  {
    FirstRequestIsSkipped(reqs[0]);
    LaterRequestsEmitLatencies(ScanLines(InitialScan, RequestLines(reqs[0])).final, reqs[1..]);
    ScanAppend(InitialScan, RequestLines(reqs[0]), LogLines(reqs[1..]));
  }

  // ---------------------------------------------------------------------
  // `stat`
  // ---------------------------------------------------------------------

  /** One CSV row: the text file's basename, the vendor, both timestamps and
      the duration. */
  datatype Row = Row(txtFile: string, vendor: string, tsStart: string, tsEnd: string, duration: int)

  /** The timings of one worker log, scanned from the initial state. */
  function LogTimings(lines: seq<string>): seq<Timing>
  {
    ScanLines(InitialScan, MarksOf(lines)).timings
  }

  /** Timings tagged with the text file's basename and the vendor. */
  function RowsOf(txtName: string, vendor: string, timings: seq<Timing>): (rows: seq<Row>)
    ensures |rows| == |timings|
    ensures forall i :: 0 <= i < |rows| ==>
              rows[i] == Row(txtName, vendor, timings[i].tsStart, timings[i].tsEnd, timings[i].duration)
    decreases |timings|
  {
    if |timings| == 0 then []
    else
      var t := timings[0];
      [Row(txtName, vendor, t.tsStart, t.tsEnd, t.duration)] + RowsOf(txtName, vendor, timings[1..])
  }

  /** The rows of one text file and vendor: its worker log scanned from the
      initial state, or nothing if the log cannot be opened. `logs` maps the
      paths of existing logs to their lines. */
  function FileRows(logs: map<string, seq<string>>, logsDir: string, batch: string, txtFile: string, vendor: string): (rows: seq<Row>)
  {
    var path := GetWorkerLogFile(logsDir, batch, txtFile, vendor);
    if path !in logs then [] else RowsOf(Basename(txtFile), vendor, LogTimings(logs[path]))
  }

  /** The rows of one text file, vendor by vendor, where `rowsOf(t, v)` are
      the rows of text file `t` and vendor `v`. */
  function VendorRows(rowsOf: (string, string) -> seq<Row>, txtFile: string, vendors: seq<string>): seq<Row>
    decreases |vendors|
  {
    if |vendors| == 0 then [] else rowsOf(txtFile, vendors[0]) + VendorRows(rowsOf, txtFile, vendors[1..])
  }

  /** The rows of every text file and vendor, in that nesting. */
  function AllRows(rowsOf: (string, string) -> seq<Row>, txtFiles: seq<string>, vendors: seq<string>): seq<Row>
    decreases |txtFiles|
  {
    if |txtFiles| == 0 then [] else VendorRows(rowsOf, txtFiles[0], vendors) + AllRows(rowsOf, txtFiles[1..], vendors)
  }

  /** The rows of each (text file, vendor) pair read from the worker logs. */
  function LogRows(logs: map<string, seq<string>>, logsDir: string, batch: string): (string, string) -> seq<Row>
  {
    (txtFile: string, vendor: string) => FileRows(logs, logsDir, batch, txtFile, vendor)
  }

  /** `stat`: the rows of every text file and vendor, each from its own
      worker log. */
  function Stat(logs: map<string, seq<string>>, logsDir: string, batch: string, txtFiles: seq<string>, vendors: seq<string>): seq<Row>
  {
    AllRows(LogRows(logs, logsDir, batch), txtFiles, vendors)
  }

  lemma {:induction false} AllRowsAppend(rowsOf: (string, string) -> seq<Row>, a: seq<string>, b: seq<string>, vendors: seq<string>)
    ensures AllRows(rowsOf, a + b, vendors) == AllRows(rowsOf, a, vendors) + AllRows(rowsOf, b, vendors)
    decreases |a|
  {
    if |a| == 0 {
      assert a + b == b;
    } else {
      assert (a + b)[0] == a[0];
      assert (a + b)[1..] == a[1..] + b;
      AllRowsAppend(rowsOf, a[1..], b, vendors);
    }
  }

  /** The scan state is reset for every log: the rows of a list of text
      files are the rows of its parts, one after the other. */
  lemma StatAppend(logs: map<string, seq<string>>, logsDir: string, batch: string,
                   a: seq<string>, b: seq<string>, vendors: seq<string>)
    ensures Stat(logs, logsDir, batch, a + b, vendors)
            == Stat(logs, logsDir, batch, a, vendors) + Stat(logs, logsDir, batch, b, vendors)
  {
    AllRowsAppend(LogRows(logs, logsDir, batch), a, b, vendors);
  }

  /** For one text file and one vendor, `stat` reports exactly the rows of
      that pair's worker log. */
  lemma StatOfOnePair(logs: map<string, seq<string>>, logsDir: string, batch: string, txtFile: string, vendor: string)
    ensures Stat(logs, logsDir, batch, [txtFile], [vendor]) == FileRows(logs, logsDir, batch, txtFile, vendor)
  {
    var rowsOf := LogRows(logs, logsDir, batch);
    var rows := FileRows(logs, logsDir, batch, txtFile, vendor);
    assert rowsOf(txtFile, vendor) == rows;
    assert [vendor][1..] == [] && [txtFile][1..] == [];
    assert VendorRows(rowsOf, txtFile, [vendor]) == rows + [];
    assert AllRows(rowsOf, [txtFile], [vendor]) == rows + [] + [];
  }

  /** Each vendor's log contributes at most one row per send line after its
      first. */
  lemma FileRowsBounded(logs: map<string, seq<string>>, logsDir: string, batch: string, txtFile: string, vendor: string,
                         path: string)
    requires path == GetWorkerLogFile(logsDir, batch, txtFile, vendor) && path in logs
    ensures |FileRows(logs, logsDir, batch, txtFile, vendor)| <= Max0(SendLines(MarksOf(logs[path])) - 1)
  {
    RowsBoundedBySends(MarksOf(logs[path]));
  }
}
